=== FILE: README.md ===
# LiveReload core, modelled in Dafny

This project models the core of the LiveReload ASP.NET Core middleware and proves properties of that model. The core has five parts:

- **File watcher** (`LiveReloadFileWatcher`). A recursive watcher on the monitored folder decides, for each changed path, whether a browser refresh is requested. The path is dropped if it is empty, lies under `\node_modules\`, or has no extension. Otherwise the optional inclusion filter is asked, and then the cached extension list is checked, ignoring case. A second watcher on the parent folder handles the monitored folder being created, deleted or renamed. After a re-creation, refreshes are debounced by 2000 ms.
- **Throttling timer** (`ThrottlingTimer`). One `System.Timers.Timer` to which every `Debounce`/`Throttle` call subscribes one more Elapsed handler.
- **Script injection** (`WebsocketScriptInjectionHelper`). It builds the WebSocket host string and the script block that replaces `</body>`. It injects that block into an HTML page held either as a string or as a byte buffer.
- **Client controller** (`LiveReloadClientScript.js`). The browser's connect / retry / reload / unload state machine.
- **Configuration defaults** (`LiveReloadConfiguration`).

Every handler is a pure function over an immutable state value. The watcher's static fields form `FileWatcher.WatcherState`. The timer is `Throttling.Timer`. The browser script's closure variables form `ClientController.Client`.

Time is an integer count of milliseconds, passed in as `now`. The following stay outside the model as inputs:

- OS events
- whether the WebSocket constructor throws
- a socket's readyState
- the embedded client script text

Refresh requests and page reloads are recorded as outputs.

Modules:

- `Common`: `Option`.
- `Text`: ordinal search and replace, generic over the element type; split and join on strings; ASCII case folding for `OrdinalIgnoreCase`.
- `Configuration`: the configuration record and its defaults.
- `Throttling`: the timer.
- `FileWatcher`: the watcher's decision and lifecycle.
- `ScriptInjection`: the injection helper.
- `ClientController`: the browser script.
- `Defaults`: what the default configuration implies.

Where the code misbehaves or contradicts its documentation, the model follows the code:

- **The oldest action fires, not the latest.** `Debounce` is meant to kill the pending tick (`LiveReload/ThrottlingTimer.cs:27`), and the doc comment of `Throttle` (`LiveReload/ThrottlingTimer.cs:47-51`) says that only the last event is handled. But the timer's handlers are never unsubscribed. When it elapses, the first handler ever subscribed stops it and invokes its own action, and every later handler returns early. So a burst of `Debounce` calls less than an interval apart fires exactly once, after the quiet period, but with the oldest closure's payload rather than the latest call's (`Throttling.DebounceBurstRunFiresOnce`, `FileWatcher.RecreateBurstRunRefreshesOnce`). Those two lemmas observe the timer at every call of the burst. In the watcher, the first debounced change's delay hint is reused by every later re-creation burst (`FileWatcher.SecondRecreationKeepsFirstHint`; see "## Findings").
- **A steady stream of Throttle calls never fires.** The same doc comment promises a firing every interval even while calls keep coming. As written, each call moves the due time to the previous call plus the interval. Calls less than half an interval apart therefore postpone the firing for as long as they continue (`Throttling.ThrottleStarvesUnderSteadyCalls`; see "## Findings").
- **Throttle can fire twice within one interval.** The doc comment promises one event per timeout period. But the wait is measured from the previous call, not from the previous firing. So a call just after a firing re-arms the timer for what is left of an interval that began before that firing, and two firings can come 1 ms apart (`Throttling.ThrottleFiresTwiceInOneInterval`, `Throttling.SteadyThrottleFiresTooOften`; see "## Findings").
- **Stopping does not cancel a pending debounce.** `StopFileWatcher` only clears the `_throttler` reference, and a debounce already pending still fires (`FileWatcher.PendingDebounceSurvivesStop`). A later folder re-creation then dereferences the null throttler (`FileWatcher.RecreateAfterStopHitsNullThrottler`).
- **Disposing the folder watcher is inverted.** `DisposeFolderWatcher` tests `== null`. With a live folder watcher it does nothing. With none it throws a null dereference, so `StopFileWatcher` is not idempotent and does not dispose the folder watcher.
- **Retry loops can run side by side.** Each error or close on a retrying socket starts its own probe loop (`ClientController.LoopsAccumulate`). An error retries even while the page is unloading; only a close honours the unload flag.
- **A failed first connection is never retried.** If the very first WebSocket construction fails, `connection` stays null. Every probe tick then throws at `connection.onopen = null`, so the client never reconnects (`ClientController.FailedStartupNeverReconnects`).

## Model

| member | source | states |
|---|---|---|
| Throttling.Create | LiveReload/ThrottlingTimer.cs:9-11 | A new timer is stopped, has no handlers, and its TimerStarted lies one year before creation |
| Throttling.Debounce | LiveReload/ThrottlingTimer.cs:25-45 | Subscribes exactly one handler and never touches TimerStarted. A positive interval leaves the timer running and due `interval` after the call; a non-positive one leaves it stopped |
| Throttling.Throttle | LiveReload/ThrottlingTimer.cs:55-84 | Subscribes one handler. Within `interval` of the previous Throttle, the timer is due at that call's time plus `interval`; otherwise it is due a full interval from now. With a forward clock and a positive interval the effective interval is positive and at most `interval`. TimerStarted moves to now |
| Throttling.RunHandlers | LiveReload/ThrottlingTimer.cs:34-41 | Of the handlers run while the timer is enabled, only the first invokes its action and the timer ends stopped; a stopped timer invokes none |
| Throttling.Elapse | LiveReload/ThrottlingTimer.cs:34-44 | Nothing fires before the due time or on a stopped timer. A due running timer invokes exactly its oldest handler and stops. The handlers and TimerStarted are kept, and so is validity |
| Throttling.ElapseTwiceInvokesOnce | LiveReload/ThrottlingTimer.cs:34-41 | After one firing, observing the timer again at any time invokes nothing |
| Throttling.FirstThrottleUsesFullInterval | LiveReload/ThrottlingTimer.cs:11-84 | On a fresh timer the first Throttle waits the whole interval and records now as TimerStarted |
| Throttling.DebounceKeepsThrottleWindow | LiveReload/ThrottlingTimer.cs:25-84 | A Debounce between two Throttles does not change the interval the second Throttle computes |
| Throttling.DebounceAllSubscribes | LiveReload/ThrottlingTimer.cs:34-41 | A burst of Debounce calls appends every closure, in call order, after the existing handlers |
| Throttling.DebounceAllArms | LiveReload/ThrottlingTimer.cs:27-44 | Under either policy, after a burst of Debounce calls the timer runs and is due `interval` after the last call |
| Throttling.DebounceIntended | LiveReload/ThrottlingTimer.cs:25-45 | The intended Debounce leaves only the new closure subscribed and otherwise sets the timer exactly as the code's Debounce does |
| Throttling.DebounceAllKeepsLatest | LiveReload/ThrottlingTimer.cs:27-41 | Under the intended Debounce, a burst leaves only its last call's closure subscribed |
| Throttling.DebounceIntendedBurstFiresLatest | LiveReload/ThrottlingTimer.cs:13-45 | Under the intended Debounce, observing the timer after a burst fires nothing before `interval` after the last call; from then on, the last call's closure fires, and a later observation fires nothing more |
| Throttling.ThrottleIntended | LiveReload/ThrottlingTimer.cs:47-84 | The intended Throttle keeps only the latest call's handler. A call while a firing is pending leaves that firing's time alone. A call on a stopped timer, with a forward clock, arms it to fire within one interval. Its spacing guarantee is `Throttling.IntendedThrottleSpacesFirings` |
| Throttling.ThrottleFiresTwiceInOneInterval | LiveReload/ThrottlingTimer.cs:47-83 | As written, a fresh timer with interval 100 and calls at 0, 1, 100 and 101 fires at 100 and again at 101, both times with the first call's closure |
| Throttling.IntendedThrottleFiresOnceInThatInterval | LiveReload/ThrottlingTimer.cs:48-49 | The same calls under the intended Throttle fire once, at 100, with the payload of the latest call pending then |
| Throttling.SteadyThrottleFiresTooOften | LiveReload/ThrottlingTimer.cs:61-83 | As written, calls every 60 ms on a fresh timer with interval 100 fire at 100, 160 and 220, that is, 60 ms apart |
| Throttling.ThrottleIntendedKeepsSpaced | LiveReload/ThrottlingTimer.cs:48-50 | An intended call that finds no firing due keeps the spacing invariant: a running countdown lasts a full interval from a call no earlier than the last firing |
| Throttling.ElapseKeepsSpaced | LiveReload/ThrottlingTimer.cs:48-50 | Under the spacing invariant, a firing comes at least one interval after the previous one and restarts the invariant from itself |
| Throttling.IntendedRunSpaced | LiveReload/ThrottlingTimer.cs:48-50 | Over any run of intended calls whose times never go back, the first firing is a full interval after the last one and consecutive firings are at least one interval apart |
| Throttling.IntendedThrottleSpacesFirings | LiveReload/ThrottlingTimer.cs:48 | The intended Throttle lets at most one event fire per timeout period: on a fresh timer, consecutive firings are at least `interval` apart |
| Throttling.SteadyThrottleNeverFires | LiveReload/ThrottlingTimer.cs:61-83 | As written, a postponed timer receiving calls at most `gap` apart, with 2·gap < interval, fires nothing and stays postponed past the last call |
| Throttling.PendingIntendedFires | LiveReload/ThrottlingTimer.cs:48-51 | With the intended Throttle, a pending firing happens no later than the first call at or after its due time |
| Throttling.IntendedThrottleFiresWithinInterval | LiveReload/ThrottlingTimer.cs:48-51 | With the intended Throttle, a stream of calls on a stopped timer that lasts at least one interval fires at least once |
| Throttling.ThrottleStarvesUnderSteadyCalls | LiveReload/ThrottlingTimer.cs:55-84 | On a fresh timer, calls less than half an interval apart never fire as written, however long they last. The intended Throttle fires once they have lasted an interval |
| Throttling.DebounceBurstFiresOnce | LiveReload/ThrottlingTimer.cs:25-45 | Observing the timer after a burst fires nothing before `interval` after the last call; from then on exactly one action fires, and it is the oldest handler's |
| Throttling.DebounceRunQuiet | LiveReload/ThrottlingTimer.cs:27-44 | Under either policy, with the timer observed at every call, a burst whose calls are less than `interval` apart, the first before any pending firing, fires nothing while it lasts and leaves the timer that the unobserved burst leaves |
| Throttling.DebounceBurstRunFiresOnce | LiveReload/ThrottlingTimer.cs:13-45 | Such a burst, observed throughout, fires nothing during the burst and nothing before `interval` after its last call, then exactly one action: the oldest handler's as written, the last call's as intended |
| FileWatcher.FirstHintSticks | LiveReload/LiveReloadFileWatcher.cs:137-144 | As written, once the timer has a handler, a new debounced refresh fires with the oldest closure's hint, not with the new change's |
| FileWatcher.SecondRecreationKeepsFirstHint | LiveReload/LiveReloadFileWatcher.cs:137-144 | On a fresh throttler, a delayed refresh after one re-creation and a plain one after the next both go out as delayed |
| FileWatcher.RequestRefreshIntended | LiveReload/LiveReloadFileWatcher.cs:137-144 | With the intended Debounce, the refresh request decides and changes the state as RequestRefresh does, except that the timer keeps only the new closure |
| FileWatcher.IntendedRefreshUsesLatestHint | LiveReload/LiveReloadFileWatcher.cs:137-144 | With the intended Debounce, a debounced refresh fires once, 2000 ms later, with the hint of the change that armed it |
| FileWatcher.Initial | LiveReload/LiveReloadFileWatcher.cs:11-18 | The static initial state has no watchers, no cached list, the folder-created flag down, and a throttler attached to a fresh timer |
| FileWatcher.GetExtension | LiveReload/LiveReloadFileWatcher.cs:109-111 | The extension is empty exactly when no dot starts one. Otherwise it is the suffix from the last dot of the file name; it starts with a dot and has at least one more character |
| FileWatcher.ParseExtensions | LiveReload/LiveReloadFileWatcher.cs:124-127 | Every entry of the split extension list is non-empty and free of commas |
| FileWatcher.ParseExtensionsDropsEmptyEntries | LiveReload/LiveReloadFileWatcher.cs:124-127 | A setting written as comma-free entries joined by commas parses to exactly its non-empty entries, in order. Empty entries, including those from doubled, leading or trailing commas, are dropped |
| FileWatcher.TrailingCommaAddsNoEntry | LiveReload/LiveReloadFileWatcher.cs:124-127 | The setting `.css,` parses to the single entry `.css` |
| FileWatcher.Decide | LiveReload/LiveReloadFileWatcher.cs:103-135 | A change is dropped exactly when disabled, ignored or vetoed. It asks for a refresh exactly when it meets the declarative `Qualifies`. The delay hint is set exactly for `.cshtml`/`.razor` (ordinal) with a positive server timeout |
| FileWatcher.RequestRefresh | LiveReload/LiveReloadFileWatcher.cs:137-144 | Without the folder-created flag the refresh is immediate. With it, a 2000 ms debounce is armed whose new handler carries the hint. With the throttler gone the refresh is a null dereference. The rest of the state is unchanged |
| FileWatcher.FileChanged | LiveReload/LiveReloadFileWatcher.cs:100-146 | A refresh is attempted exactly when the path qualifies against the effective list, and the hint is as above. Ignored, disabled or vetoed paths change nothing. The list gets cached once the filter has been passed. Only the timer and the list may change |
| FileWatcher.IgnoredPathSkipsFilter | LiveReload/LiveReloadFileWatcher.cs:106-119 | For empty, node_modules and extensionless paths the result does not depend on the filter and is no refresh |
| FileWatcher.ExtensionListNeverRebuilt | LiveReload/LiveReloadFileWatcher.cs:121-128 | Once cached, the list stays and the configured extensions no longer matter |
| FileWatcher.StartFilesWatcher | LiveReload/LiveReloadFileWatcher.cs:42-56 | A live file watcher exists afterwards; one that existed before is overwritten and counted as leaked |
| FileWatcher.StartFolderWatcher | LiveReload/LiveReloadFileWatcher.cs:58-71 | The same for the parent-folder watcher |
| FileWatcher.StartFileWatcher | LiveReload/LiveReloadFileWatcher.cs:21-33 | Disabled does nothing. Enabled records the monitored name and starts both watchers, leaking any live ones; the flag, list and timer are untouched |
| FileWatcher.DisposeFilesWatcher | LiveReload/LiveReloadFileWatcher.cs:74-85 | Afterwards no file watcher exists and nothing else changes |
| FileWatcher.DisposeFilesWatcherIdempotent | LiveReload/LiveReloadFileWatcher.cs:74-85 | Disposing the file watcher twice is disposing it once, and it is a no-op without one |
| FileWatcher.DisposeFolderWatcher | LiveReload/LiveReloadFileWatcher.cs:87-98 | Completes exactly when a folder watcher exists, and then leaves it in place; with none it is a null dereference. The state never changes |
| FileWatcher.StopFileWatcher | LiveReload/LiveReloadFileWatcher.cs:35-40 | Always disposes the file watcher and never the folder watcher. The throttler is detached only when a folder watcher exists; otherwise the stop throws first |
| FileWatcher.FolderCreated | LiveReload/LiveReloadFileWatcher.cs:158-162 | Raises the flag and starts a file watcher, leaking a live one |
| FileWatcher.FolderDeleted | LiveReload/LiveReloadFileWatcher.cs:164-167 | Only disposes the file watcher |
| FileWatcher.FolderRenamed | LiveReload/LiveReloadFileWatcher.cs:169-174 | Renaming to the monitored name (ignoring case) restarts both watchers. Renaming away from it disposes the file watcher. Anything else is ignored |
| FileWatcher.TimerElapsed | LiveReload/LiveReloadFileWatcher.cs:137-142 | At most one refresh request, and exactly one when the timer is due. It carries the oldest handler's hint and lowers the flag. Nothing happens before the due time |
| FileWatcher.ChangeAllKeepsDebouncing | LiveReload/LiveReloadFileWatcher.cs:137-142 | Under the flag, each qualifying change re-arms the debounce, which ends up due 2000 ms after the last change, and the flag stays up |
| FileWatcher.RecreateBurstRefreshesOnce | LiveReload/LiveReloadFileWatcher.cs:137-142 | Observing the state after a burst of qualifying changes following a re-creation gives no refresh before 2000 ms after the last change; from then on exactly one, then none. The flag is lowered |
| FileWatcher.ChangeRunQuiet | LiveReload/LiveReloadFileWatcher.cs:137-142 | With the timer observed at every change, a burst of qualifying changes under the flag, less than 2000 ms apart and the first before any pending firing, requests no refresh while it lasts and ends in the same state as the unobserved burst |
| FileWatcher.RecreateBurstRunRefreshesOnce | LiveReload/LiveReloadFileWatcher.cs:137-142 | Such a burst, observed throughout, requests no refresh during the burst and none before 2000 ms after its last change, then exactly one, then none |
| FileWatcher.PendingDebounceSurvivesStop | LiveReload/LiveReloadFileWatcher.cs:35-40 | Stopping detaches the throttler, yet a due pending debounce still produces its refresh request |
| FileWatcher.RecreateAfterStopHitsNullThrottler | LiveReload/LiveReloadFileWatcher.cs:137-138 | After a stop and a folder re-creation, a qualifying change dereferences the null throttler |
| FileWatcher.StepInvariants | LiveReload/LiveReloadFileWatcher.cs:100-174 | No event breaks the timer's validity, re-attaches the throttler, forgets a leaked handle or un-caches the list |
| ScriptInjection.HostString | LiveReload/WebsocketScriptInjectionHelper.cs:84-95 | The configured WebSocketHost plus the URL when set; otherwise `ws`/`wss`://host:port plus the URL. The result always ends with the URL |
| ScriptInjection.ClientJavaScript | LiveReload/WebsocketScriptInjectionHelper.cs:80-135 | Script-only fills every `{0}` with the host string. Otherwise the block opens with its header comment and ends with `</body>`. It holds a script reference when a script URL is set, else the filled script inline |
| ScriptInjection.ScriptWithoutPlaceholderIsVerbatim | LiveReload/WebsocketScriptInjectionHelper.cs:116-117 | A script without `{0}` is served unchanged |
| ScriptInjection.BlockContainsBodyMarker | LiveReload/WebsocketScriptInjectionHelper.cs:129-132 | Every block contains the `</body>` it replaced |
| ScriptInjection.InjectIntoString | LiveReload/WebsocketScriptInjectionHelper.cs:23-32 | A page with the marker, or without `</body>`, is returned unchanged. Otherwise every `</body>` is replaced by the block, so the result is longer and contains the block |
| ScriptInjection.InjectReplacesEveryBody | LiveReload/WebsocketScriptInjectionHelper.cs:25-29 | Take a page without the marker, made of `</body>`-free pieces with `</body>` between them. It becomes the same pieces with the block between them |
| ScriptInjection.ReinjectionInjectsAgain | LiveReload/WebsocketScriptInjectionHelper.cs:25-29 | When the first injection does not add the marker, a second injection grows the page again |
| ScriptInjection.MarkerInBlockStopsReinjection | LiveReload/WebsocketScriptInjectionHelper.cs:25-29 | When the block does hold the marker, a second injection changes nothing |
| ScriptInjection.MarkerInScriptUrlReachesBlock | LiveReload/WebsocketScriptInjectionHelper.cs:124-127 | A script URL containing the marker puts the marker into the block |
| ScriptInjection.DefaultBlockLacksMarker | LiveReload/WebsocketScriptInjectionHelper.cs:120-132 | The default block never contains the marker |
| ScriptInjection.DefaultPageIsInjectedTwice | LiveReload/WebsocketScriptInjectionHelper.cs:13-29 | Under the defaults, `</body>` becomes the block, and injecting that again grows it |
| ScriptInjection.InjectIntoStringIntended | LiveReload/WebsocketScriptInjectionHelper.cs:23-32 | The page is unchanged when it holds the block's comment or lacks `</body>`. Otherwise every `</body>` is replaced by the block, so the page gains the block and with it the comment |
| ScriptInjection.IntendedInjectReplacesEveryBody | LiveReload/WebsocketScriptInjectionHelper.cs:25-29 | The intended injection likewise turns the pieces joined by `</body>` into the pieces joined by the block |
| ScriptInjection.BlockContainsComment | LiveReload/WebsocketScriptInjectionHelper.cs:120-122 | Every block carries the `jbartels` comment |
| ScriptInjection.IntendedInjectionIsIdempotent | LiveReload/WebsocketScriptInjectionHelper.cs:23-32 | With the block's own comment as the marker, injecting twice equals injecting once, for every page and configuration |
| ScriptInjection.AsciiBytes | LiveReload/WebsocketScriptInjectionHelper.cs:16-17 | The UTF-8 encoding of ASCII text is one equal-valued byte per character |
| ScriptInjection.InjectIntoBytes | LiveReload/WebsocketScriptInjectionHelper.cs:46-75 | A buffer with the marker, or without `</body>`, is written unchanged. Otherwise it writes the bytes before the last `</body>` less one, the script, and the rest; with `</body>` at 0 it fails its range check |
| ScriptInjection.SpliceKeepsTail | LiveReload/WebsocketScriptInjectionHelper.cs:56-74 | Only the last `</body>` is spliced. The bytes after it are kept and hold no other `</body>`, and the length changes by the script's length minus 8 |
| ScriptInjection.InjectIntoBytesIntended | LiveReload/WebsocketScriptInjectionHelper.cs:46-75 | The intended splice keeps every byte before and after the last `</body>` and puts the script exactly in its place |
| ScriptInjection.IntendedSpliceAgreesWithReplace | LiveReload/WebsocketScriptInjectionHelper.cs:29-75 | On a page with a single `</body>` the intended byte splice equals the string replacement |
| ScriptInjection.SpliceDropsByteBeforeBody | LiveReload/WebsocketScriptInjectionHelper.cs:67 | For `A</body>`, the as-written splice loses the `A` that the intended one keeps |
| ScriptInjection.SpliceFailsAtIndexZero | LiveReload/WebsocketScriptInjectionHelper.cs:67 | A buffer that starts with `</body>` makes the as-written splice fail |
| Text.LastIndexOf | LiveReload/WebsocketScriptInjectionHelper.cs:77 | -1 exactly when the pattern does not occur; otherwise the last index at which it occurs |
| Text.ReplaceAllJoinWith | LiveReload/WebsocketScriptInjectionHelper.cs:29 | For a pattern that cannot overlap itself, replacing it in pieces joined by it, none of which contains it, gives the pieces joined by the replacement |
| Text.SplitRemoveEmptyOfJoinDropsEmpty | LiveReload/LiveReloadFileWatcher.cs:125-127 | Splitting a join of separator-free entries and removing empty pieces gives the non-empty entries in order |
| Text.SplitRemoveEmptyOfJoin | LiveReload/LiveReloadFileWatcher.cs:125-127 | Splitting comma-joined non-empty entries without commas, removing empty ones, gives back the entries |
| Text.ContainsIgnoreCase | LiveReload/LiveReloadFileWatcher.cs:131 | True exactly when some entry equals the extension under ASCII case folding |
| Defaults.DefaultExtensionsJoin | LiveReload/Models/LiveReloadConfiguration.cs:33 | The default extension setting is the seven default entries joined with commas |
| Defaults.DefaultExtensionsParse | LiveReload/Models/LiveReloadConfiguration.cs:27-33 | The default setting splits into exactly those seven entries, and `.live`, which the documentation asks every list to include, is not among them |
| Defaults.DefaultNeverDelays | LiveReload/Models/LiveReloadConfiguration.cs:64 | With the default server timeout of 0 no refresh carries the delay hint |
| Defaults.DefaultCssRefreshesTxtDoesNot | LiveReload/LiveReloadFileWatcher.cs:121-144 | With the defaults, `x.CSS` refreshes immediately (case-insensitively listed) and `x.txt` does not refresh |
| Defaults.DefaultBlockReferencesScript | LiveReload/Models/LiveReloadConfiguration.cs:66-70 | By default the block references `/__livereloadscript` instead of inlining the script |
| Defaults.DefaultHostString | LiveReload/Models/LiveReloadConfiguration.cs:72-81 | By default the client connects to `ws(s)://host:port/__livereload` |
| ClientController.StartRetry | LiveReload/LiveReloadClientScript.js:48-66 | Adds exactly one new probe loop, distinct from the running ones; nothing else changes |
| ClientController.TryConnect | LiveReload/LiveReloadClientScript.js:11-46 | On success the connection is a new socket with fresh handlers. On failure the connection is kept, its handlers are re-attached, and a loop starts only when retrying is asked for |
| ClientController.Startup | LiveReload/LiveReloadClientScript.js:1-9 | Without WebSocket support there is no client. Otherwise a well-formed client exists, connected with retries or holding one retry loop and no connection |
| ClientController.ClearOnOpen | LiveReload/LiveReloadClientScript.js:51 | Only the socket's onopen is cleared |
| ClientController.OnMessage | LiveReload/LiveReloadClientScript.js:23-33 | "Refresh" schedules a 10 ms reload and "DelayRefresh" a 1000 ms reload; anything else is ignored |
| ClientController.OnError | LiveReload/LiveReloadClientScript.js:34-37 | A retry loop starts exactly when the socket was set up to retry |
| ClientController.OnClose | LiveReload/LiveReloadClientScript.js:38-41 | A retry loop starts exactly when the socket retries and the page is not unloading |
| ClientController.OnOpen | LiveReload/LiveReloadClientScript.js:42-62 | A socket carrying the probe's handler reloads once and stops that loop; any other open changes nothing |
| ClientController.ProbeTick | LiveReload/LiveReloadClientScript.js:48-65 | With no connection, or for a stopped loop, nothing happens. Otherwise the new connection never retries. An open connection reloads at once and stops the loop; a pending one gets a reload-and-stop onopen |
| ClientController.BeforeUnload | LiveReload/LiveReloadClientScript.js:69-72 | Sets the unload flag and starts one grace timeout |
| ClientController.UnloadTimerElapsed | LiveReload/LiveReloadClientScript.js:72-80 | Clears the unload flag. An existing connection is replaced by a retrying one, or re-armed with a retry loop when construction fails. No reload is requested |
| ClientController.StartRetryPreservesValid | LiveReload/LiveReloadClientScript.js:48-66 | Starting a loop keeps the controller well formed |
| ClientController.ProbeTickPreservesValid | LiveReload/LiveReloadClientScript.js:48-65 | A probe tick keeps the controller well formed; only the current connection carries the reload-on-open handler |
| ClientController.UnloadTimerPreservesValid | LiveReload/LiveReloadClientScript.js:72-80 | The grace timeout keeps the controller well formed |
| ClientController.StepPreservesValid | LiveReload/LiveReloadClientScript.js:1-82 | Every event keeps the controller well formed and only appends to the reloads |
| ClientController.CloseRetriesUnlessClosing | LiveReload/LiveReloadClientScript.js:38-41 | On a retrying socket, a close adds a loop exactly when the page is not unloading |
| ClientController.ErrorRetriesEvenWhileClosing | LiveReload/LiveReloadClientScript.js:34-37 | On a retrying socket, an error always adds a loop |
| ClientController.LoopsAccumulate | LiveReload/LiveReloadClientScript.js:48-49 | Two errors leave two more loops running side by side |
| ClientController.ProbeConnectionNeverRetries | LiveReload/LiveReloadClientScript.js:52 | Neither an error nor a close on a probe's connection starts a loop |
| ClientController.FailedStartupNeverReconnects | LiveReload/LiveReloadClientScript.js:9-20 | After a failed first construction the connection stays null and every probe tick is a no-op |
| ClientController.ReconnectThenReload | LiveReload/LiveReloadClientScript.js:38-62 | A close starts a loop. A probe whose new connection opens later reloads exactly once and stops that loop, which never ticks again |
| ClientController.NavigationRace | LiveReload/LiveReloadClientScript.js:68-81 | During unload a close does not retry. After the grace timeout retrying is back on, with a fresh retrying connection |

## Left out

- OS plumbing: `FileSystemWatcher` event delivery, notify filters, `Path.GetFullPath` and `Path.GetDirectoryName`. Events are inputs, and the monitored folder's resolved name is the `resolvedName` parameter.
- Threading: the `_loadLock` double-checked initialisation, `Lazy<Timer>`, and timer callbacks racing with handlers. Each handler is one atomic step.
- `LiveReloadMiddleware.RefreshWebSocketRequest` and the WebSocket broadcast are not part of this model. A refresh request is an output value carrying the delay hint.
- Resources: loading the embedded client script from the assembly, and the `InvalidDataException` when it is missing. The script text is a parameter.
- Streams: `Stream.WriteAsync` is modelled as concatenation.
- `InjectLiveReloadScriptAsync(ReadOnlyMemory<byte>, …)` only copies to an array and forwards to the modelled overload.
- `RefreshInclusionModes` is context only. The inclusion filter is an optional function parameter returning a `FileInclusionMode`, and `RefreshInclusionFilter`, `FolderToMonitor` resolution and `ShutdownCancellationToken` are not used by the core.
- The browser side: console logging and `location.reload` (recorded as `Reload` values), and the `setTimeout` delays of reloads (recorded as their delay).
- Clock time: `DateTime.UtcNow` is the `now` parameter. `TotalMilliseconds` is a double, modelled as integer milliseconds.
- The year in `AddYears(-1)` is 365 days; leap years are not modelled.
- Null strings: `WebSocketHost` and `LiveReloadScriptUrl` are tested with `IsNullOrEmpty` and `WebSocketUrl` is only concatenated, so the empty string stands for null in all three.
- A null `ClientFileExtensions` is not modelled. `Split` on it throws inside `FileChanged` (`LiveReload/LiveReloadFileWatcher.cs:125`) for every change that passes the filter while no list is cached, whereas the empty string gives an empty list.
- A null `e.Name` in a rename event is not modelled.
- The browser script's own timings are not modelled: the 500 ms startup delay, the 500 ms probe period and the 2500 ms unload grace. Its timer callbacks are events the caller delivers in any order.
- Throttling.Throttle: the `(int)` truncation of a fractional millisecond count and its overflow for a clock that moves backwards by more than 2^31 ms are not modelled, because time is whole milliseconds here.
- Throttling.DebounceRunQuiet: a burst with a gap of a full interval or more is not characterised. `DebounceRun` models it, and the timer then fires inside the gap, as the code's does.
- Throttling.Elapse: an action that re-enters the timer from inside its own handler is not modelled, because the handlers' actions are opaque values.
- ScriptInjection.AsciiBytes: only ASCII text is encoded. The marker and `</body>` are ASCII, and UTF-8 of other text is not modelled.
- Text.ContainsIgnoreCase: case folding covers ASCII letters only, not full Unicode `OrdinalIgnoreCase`.
- FileWatcher.GetExtension: both `/` and `\` count as directory separators, as on Windows. Invalid-path-character checks and the Windows volume separator are not modelled.
- ClientController.ProbeTick: the `TypeError` thrown when `connection` is null is modelled as a tick that changes nothing, which is what remains of it once the exception ends the callback.

## Findings

| source | as written | input that shows it | evidently intended | confidence | as-written member | corrected member |
|---|---|---|---|---|---|---|
| LiveReload/WebsocketScriptInjectionHelper.cs:67 | writes `buffer[0 .. index-1)` before the script, dropping the byte just before the last `</body>`, and fails its range check when `</body>` is at index 0 | the buffer `A</body>` loses its `A`; the buffer `</body>` makes the splice fail | writes `buffer[0 .. index)`, so every byte before `</body>` is kept | not executed | ScriptInjection.InjectIntoBytes (with ScriptInjection.SpliceDropsByteBeforeBody and ScriptInjection.SpliceFailsAtIndexZero) | ScriptInjection.InjectIntoBytesIntended (with ScriptInjection.IntendedSpliceAgreesWithReplace) |
| LiveReload/ThrottlingTimer.cs:65-66 | each call re-arms the timer to fire `interval` after the previous call and discards the pending firing's time, against the promise at lines 48-51 of a firing every interval while events are pending | on a fresh timer with interval 100, calls every 10 ms from 0 to 990 fire nothing | a call while a firing is pending keeps that firing's time and only replaces the payload, so a stream lasting an interval fires | not executed | Throttling.Throttle (with Throttling.SteadyThrottleNeverFires and Throttling.ThrottleStarvesUnderSteadyCalls) | Throttling.ThrottleIntended (with Throttling.IntendedThrottleFiresWithinInterval) |
| LiveReload/ThrottlingTimer.cs:65-83 | the remaining wait is measured from the previous call (`TimerStarted`, set at line 83), not from the previous firing, so a call just after a firing re-arms the timer for the rest of an interval that began before that firing, against the promise at line 48 of only one event per timeout period | on a fresh timer with interval 100, calls at 0, 1, 100 and 101 fire at 100 and at 101; calls every 60 ms from 0 to 240 fire at 100, 160 and 220 | consecutive firings are at least one interval apart | not executed | Throttling.Throttle (with Throttling.ThrottleFiresTwiceInOneInterval and Throttling.SteadyThrottleFiresTooOften) | Throttling.ThrottleIntended (with Throttling.IntendedThrottleSpacesFirings and Throttling.IntendedThrottleFiresOnceInThatInterval) |
| LiveReload/ThrottlingTimer.cs:34-41 | each Debounce subscribes one more handler and none is ever removed, so when the timer elapses the oldest closure runs and stops the timer; the "kill pending ticks" of line 27 does not happen | in the watcher, a delayed refresh after one folder re-creation and a plain `.css` refresh after the next both go out as delayed | the pending tick is killed, so a burst fires once with the latest call's closure | not executed | Throttling.Debounce (with Throttling.DebounceBurstFiresOnce and FileWatcher.SecondRecreationKeepsFirstHint) | Throttling.DebounceIntended (with Throttling.DebounceIntendedBurstFiresLatest and FileWatcher.IntendedRefreshUsesLatestHint) |
| LiveReload/WebsocketScriptInjectionHelper.cs:13 | the "already injected" marker is `<!-- Jbartels Live Reload -->`, but the block writes `<!-- jbartels Live Reload -->`, and the check is ordinal, so an injected page is never recognised | under the default configuration the page `</body>` becomes the block, and injecting that again grows it | the marker is the comment the block itself carries, so injection is idempotent | not executed | ScriptInjection.InjectIntoString (with ScriptInjection.DefaultPageIsInjectedTwice) | ScriptInjection.InjectIntoStringIntended (with ScriptInjection.IntendedInjectionIsIdempotent) |

=== FILE: clientcontroller.dfy ===
/**
 The browser-side reconnection controller of LiveReloadClientScript.js as an
 event-driven transition system. WebSocket objects are numbered in creation
 order; for each the model keeps the handlers the script last attached to it
 (whether its error/close handlers retry, and what its onopen does). Timers are
 the active setInterval probe loops and the pending beforeunload timeouts.
 Whether the WebSocket constructor throws and a connection's readyState are
 inputs; page reloads are recorded, not performed.
 */
module ClientController {
  import opened Common

  /** Reload delay after a "Refresh" message. */
  const RefreshDelayMs: nat := 10
  /** Reload delay after a "DelayRefresh" message. */
  const DelayRefreshDelayMs: nat := 1000

  /** What a connection's onopen does. */
  datatype OpenHandler =
    | NoOpenHandler                 // onopen = null
    | LogConnected                  // the handler tryConnect attaches
    | ReloadAndStop(interval: nat)  // the probe's handler: reload, then clearInterval

  /** The handlers attached to one WebSocket; `retryOnFail` is captured by its error and close handlers. */
  datatype Socket = Socket(retryOnFail: bool, onopen: OpenHandler)

  /** A requested page reload: a setTimeout of location.reload, or an immediate reload. */
  datatype Reload = ReloadAfter(delayMs: nat) | ReloadNow

  datatype Client = Client(
    isClosing: bool,
    connection: Option<nat>,        // the script's `connection` variable
    sockets: map<nat, Socket>,      // every WebSocket created so far, with its handlers
    nextSocket: nat,
    intervals: set<nat>,            // probe loops not yet cleared
    nextInterval: nat,
    pendingUnloadTimers: nat,       // beforeunload timeouts not yet elapsed
    reloads: seq<Reload>)           // reloads requested so far, in order

  /**
   Well-formedness: the connection is a created socket, identifiers are fresh
   below their counters, and only the current connection can carry the probe's
   reload-on-open handler.
   */
  predicate Valid(c: Client) {
    && (c.connection.Some? ==> c.connection.value in c.sockets)
    && (forall k :: k in c.sockets ==> k < c.nextSocket)
    && (forall iv :: iv in c.intervals ==> iv < c.nextInterval)
    && (forall k :: k in c.sockets && c.sockets[k].onopen.ReloadAndStop? ==> c.connection == Some(k))
  }

  const Initial: Client := Client(false, None, map[], 0, {}, 0, 0, [])

  /** retryConnection: start one more probe loop. */
  function StartRetry(c: Client): (r: Client)
    ensures r == c.(intervals := r.intervals, nextInterval := r.nextInterval)
    ensures r.intervals == c.intervals + {c.nextInterval}
    ensures Valid(c) ==> c.nextInterval !in c.intervals && |r.intervals| == |c.intervals| + 1
  {
    c.(intervals := c.intervals + {c.nextInterval}, nextInterval := c.nextInterval + 1)
  }

  /**
   `connection = tryConnect(retryOnFail)`. When the constructor throws,
   `connection` keeps its previous value (a retry loop starts if asked for) and
   the handlers are re-attached to that old connection, if there is one.
   */
  function TryConnect(c: Client, retryOnFail: bool, constructed: bool): (r: Client)
    ensures constructed ==>
              && r.connection == Some(c.nextSocket)
              && r.sockets == c.sockets[c.nextSocket := Socket(retryOnFail, LogConnected)]
              && r.intervals == c.intervals
    ensures !constructed ==> r.connection == c.connection
    ensures !constructed && c.connection.Some? ==>
              r.sockets == c.sockets[c.connection.value := Socket(retryOnFail, LogConnected)]
    ensures !constructed && c.connection.None? ==> r.sockets == c.sockets
    ensures !constructed ==> r.intervals == if retryOnFail then c.intervals + {c.nextInterval} else c.intervals
    ensures r.connection.Some? ==> r.connection.value in r.sockets
    ensures r.isClosing == c.isClosing && r.reloads == c.reloads && r.pendingUnloadTimers == c.pendingUnloadTimers
    ensures r.nextSocket >= c.nextSocket && r.nextInterval >= c.nextInterval
  {
    var afterConstructor :=
      if constructed then c.(connection := Some(c.nextSocket), nextSocket := c.nextSocket + 1)
      else if retryOnFail then StartRetry(c)
      else c;
    match afterConstructor.connection
    case None => afterConstructor
    case Some(k) => afterConstructor.(sockets := afterConstructor.sockets[k := Socket(retryOnFail, LogConnected)])
  }

  /**
   The script's start, 500 ms after load: nothing without WebSocket support,
   otherwise a first connection with retries enabled.
   */
  function Startup(supported: bool, constructed: bool): (r: Option<Client>)
    ensures r.Some? <==> supported
    ensures r.Some? ==> Valid(r.value) && !r.value.isClosing && r.value.reloads == []
    ensures r.Some? && constructed ==>
              r.value.connection == Some(0) && r.value.sockets[0].retryOnFail && r.value.intervals == {}
    ensures r.Some? && !constructed ==> r.value.connection == None && r.value.intervals == {0}
  {
    if !supported then None else Some(TryConnect(Initial, true, constructed))
  }

  /** Sets onopen = null on socket `k`. */
  function ClearOnOpen(c: Client, k: nat): (r: Client)
    ensures r == c.(sockets := r.sockets)
    ensures k in c.sockets ==> r.sockets == c.sockets[k := c.sockets[k].(onopen := NoOpenHandler)]
    ensures k !in c.sockets ==> r == c
  {
    if k in c.sockets then c.(sockets := c.sockets[k := c.sockets[k].(onopen := NoOpenHandler)]) else c
  }

  /** onmessage on socket `k`: "Refresh" and "DelayRefresh" schedule a reload, anything else is ignored. */
  function OnMessage(c: Client, k: nat, data: string): (r: Client)
    ensures k in c.sockets && data == "Refresh" ==> r == c.(reloads := c.reloads + [ReloadAfter(RefreshDelayMs)])
    ensures k in c.sockets && data == "DelayRefresh" ==>
              r == c.(reloads := c.reloads + [ReloadAfter(DelayRefreshDelayMs)])
    ensures data != "Refresh" && data != "DelayRefresh" ==> r == c
    ensures |r.reloads| <= |c.reloads| + 1
  {
    if k !in c.sockets then c
    else if data == "DelayRefresh" then c.(reloads := c.reloads + [ReloadAfter(DelayRefreshDelayMs)])
    else if data == "Refresh" then c.(reloads := c.reloads + [ReloadAfter(RefreshDelayMs)])
    else c
  }

  /** onerror on socket `k`: a retry loop when that socket was set up with retries. */
  function OnError(c: Client, k: nat): (r: Client)
    ensures k in c.sockets && c.sockets[k].retryOnFail ==> r == StartRetry(c)
    ensures !(k in c.sockets && c.sockets[k].retryOnFail) ==> r == c
  {
    if k in c.sockets && c.sockets[k].retryOnFail then StartRetry(c) else c
  }

  /** onclose on socket `k`: a retry loop when set up with retries and the page is not unloading. */
  function OnClose(c: Client, k: nat): (r: Client)
    ensures k in c.sockets && c.sockets[k].retryOnFail && !c.isClosing ==> r == StartRetry(c)
    ensures !(k in c.sockets && c.sockets[k].retryOnFail && !c.isClosing) ==> r == c
  {
    if k in c.sockets && c.sockets[k].retryOnFail && !c.isClosing then StartRetry(c) else c
  }

  /** Socket `k` finishes opening and runs its onopen. */
  function OnOpen(c: Client, k: nat): (r: Client)
    ensures k in c.sockets && c.sockets[k].onopen.ReloadAndStop? ==>
              r == c.(reloads := c.reloads + [ReloadNow], intervals := c.intervals - {c.sockets[k].onopen.interval})
    ensures !(k in c.sockets && c.sockets[k].onopen.ReloadAndStop?) ==> r == c
  {
    if k !in c.sockets then c
    else match c.sockets[k].onopen
      case ReloadAndStop(iv) => c.(reloads := c.reloads + [ReloadNow], intervals := c.intervals - {iv})
      case _ => c
  }

  /**
   One tick of probe loop `iv`: clear the current connection's onopen, connect
   without retries, then reload at once if the connection reports readyState 1,
   or leave an onopen that reloads and stops the loop. With no current
   connection the first assignment throws and the tick does nothing.
   */
  function ProbeTick(c: Client, iv: nat, constructed: bool, alreadyOpen: bool): (r: Client)
    ensures iv !in c.intervals || c.connection.None? ==> r == c
    ensures Valid(c) && iv in c.intervals && c.connection.Some? ==>
              && r.connection.Some? && r.connection.value in r.sockets
              && !r.sockets[r.connection.value].retryOnFail
              && (constructed ==> && r.connection == Some(c.nextSocket)
                                  && c.connection.value in r.sockets
                                  && r.sockets[c.connection.value].onopen == NoOpenHandler)
              && (!constructed ==> r.connection == c.connection)
              && (alreadyOpen ==> r.reloads == c.reloads + [ReloadNow] && r.intervals == c.intervals - {iv})
              && (!alreadyOpen ==> r.reloads == c.reloads && r.intervals == c.intervals
                                   && r.sockets[r.connection.value].onopen == ReloadAndStop(iv))
    ensures r.isClosing == c.isClosing && r.pendingUnloadTimers == c.pendingUnloadTimers
  {
    if iv !in c.intervals then c
    else match c.connection
      case None => c
      case Some(prev) =>
        var probed := TryConnect(ClearOnOpen(c, prev), false, constructed);
        match probed.connection
        case None => probed
        case Some(k) =>
          if alreadyOpen then probed.(reloads := probed.reloads + [ReloadNow], intervals := probed.intervals - {iv})
          else probed.(sockets := probed.sockets[k := probed.sockets[k].(onopen := ReloadAndStop(iv))])
  }

  /** beforeunload: suspend retries on close and start the 2500 ms grace timeout. */
  function BeforeUnload(c: Client): (r: Client)
    ensures r.isClosing
    ensures r == c.(isClosing := true, pendingUnloadTimers := c.pendingUnloadTimers + 1)
  {
    c.(isClosing := true, pendingUnloadTimers := c.pendingUnloadTimers + 1)
  }

  /**
   The grace timeout elapses with the page still present: resume, and if a
   connection exists clear its onopen and connect again with retries enabled.
   */
  function UnloadTimerElapsed(c: Client, constructed: bool): (r: Client)
    ensures c.pendingUnloadTimers == 0 ==> r == c
    ensures c.pendingUnloadTimers > 0 ==>
              && !r.isClosing && r.pendingUnloadTimers == c.pendingUnloadTimers - 1
              && r.reloads == c.reloads
              && (c.connection.None? ==> r.connection == None && r.intervals == c.intervals)
              && (c.connection.Some? && constructed ==>
                    && r.connection == Some(c.nextSocket)
                    && c.nextSocket in r.sockets
                    && r.sockets[c.nextSocket] == Socket(true, LogConnected)
                    && r.intervals == c.intervals)
              && (c.connection.Some? && !constructed ==>
                    && r.connection == c.connection
                    && c.connection.value in r.sockets
                    && r.sockets[c.connection.value] == Socket(true, LogConnected)
                    && r.intervals == c.intervals + {c.nextInterval})
  {
    if c.pendingUnloadTimers == 0 then c
    else
      var resumed := c.(isClosing := false, pendingUnloadTimers := c.pendingUnloadTimers - 1);
      match resumed.connection
      case None => resumed
      case Some(k) => TryConnect(ClearOnOpen(resumed, k), true, constructed)
  }

  datatype Event =
    | Message(socket: nat, data: string)
    | Error(socket: nat)
    | Close(socket: nat)
    | Open(socket: nat)
    | Probe(interval: nat, constructed: bool, alreadyOpen: bool)
    | Unloading
    | UnloadGraceElapsed(constructed: bool)

  function Step(c: Client, e: Event): Client {
    match e
    case Message(k, data) => OnMessage(c, k, data)
    case Error(k) => OnError(c, k)
    case Close(k) => OnClose(c, k)
    case Open(k) => OnOpen(c, k)
    case Probe(iv, constructed, alreadyOpen) => ProbeTick(c, iv, constructed, alreadyOpen)
    case Unloading => BeforeUnload(c)
    case UnloadGraceElapsed(constructed) => UnloadTimerElapsed(c, constructed)
  }

  lemma StartRetryPreservesValid(c: Client)
    requires Valid(c)
    ensures Valid(StartRetry(c))
  {
  }

  lemma ProbeTickPreservesValid(c: Client, iv: nat, constructed: bool, alreadyOpen: bool)
    requires Valid(c)
    ensures Valid(ProbeTick(c, iv, constructed, alreadyOpen))
  {
    if iv in c.intervals && c.connection.Some? {
      var prev := c.connection.value;
      var cleared := ClearOnOpen(c, prev);
      assert forall k :: k in cleared.sockets ==> !cleared.sockets[k].onopen.ReloadAndStop?;
      var probed := TryConnect(cleared, false, constructed);
      assert forall k :: k in probed.sockets ==> k < probed.nextSocket;
      assert forall k :: k in probed.sockets ==> !probed.sockets[k].onopen.ReloadAndStop?;
    }
  }

  lemma UnloadTimerPreservesValid(c: Client, constructed: bool)
    requires Valid(c)
    ensures Valid(UnloadTimerElapsed(c, constructed))
  {
    if c.pendingUnloadTimers > 0 && c.connection.Some? {
      var prev := c.connection.value;
      var resumed := c.(isClosing := false, pendingUnloadTimers := c.pendingUnloadTimers - 1);
      var cleared := ClearOnOpen(resumed, prev);
      assert forall k :: k in cleared.sockets ==> !cleared.sockets[k].onopen.ReloadAndStop?;
      var r := TryConnect(cleared, true, constructed);
      assert forall k :: k in r.sockets ==> k < r.nextSocket;
      assert forall k :: k in r.sockets ==> !r.sockets[k].onopen.ReloadAndStop?;
    }
  }

  /** Every event keeps the controller well formed and only ever appends reloads. */
  lemma StepPreservesValid(c: Client, e: Event)
    requires Valid(c)
    ensures Valid(Step(c, e))
    ensures c.reloads <= Step(c, e).reloads
  {
    match e
    case Probe(iv, constructed, alreadyOpen) => ProbeTickPreservesValid(c, iv, constructed, alreadyOpen);
    case UnloadGraceElapsed(constructed) => UnloadTimerPreservesValid(c, constructed);
    case Error(k) => StartRetryPreservesValid(c);
    case Close(k) => StartRetryPreservesValid(c);
    case _ =>
  }

  /** A close starts a retry loop on a retrying socket exactly when the page is not unloading. */
  lemma CloseRetriesUnlessClosing(c: Client, k: nat)
    requires Valid(c) && k in c.sockets && c.sockets[k].retryOnFail
    ensures |OnClose(c, k).intervals| == |c.intervals| + 1 <==> !c.isClosing
    ensures c.isClosing ==> OnClose(c, k) == c
  {
  }

  /** An error starts a retry loop on a retrying socket even while the page is unloading. */
  lemma ErrorRetriesEvenWhileClosing(c: Client, k: nat)
    requires Valid(c) && k in c.sockets && c.sockets[k].retryOnFail
    ensures |OnError(c, k).intervals| == |c.intervals| + 1
  {
  }

  /** Each qualifying failure starts its own loop: two errors leave two more loops running. */
  lemma LoopsAccumulate(c: Client, k: nat)
    requires Valid(c) && k in c.sockets && c.sockets[k].retryOnFail
    ensures |OnError(OnError(c, k), k).intervals| == |c.intervals| + 2
  {
    var once := OnError(c, k);
    assert Valid(once);
  }

  /** The connection a probe leaves behind never starts a nested loop, whatever fails. */
  lemma ProbeConnectionNeverRetries(c: Client, iv: nat, constructed: bool, alreadyOpen: bool)
    requires Valid(c) && iv in c.intervals && c.connection.Some?
    ensures var r := ProbeTick(c, iv, constructed, alreadyOpen);
      && OnError(r, r.connection.value).intervals == r.intervals
      && OnClose(r, r.connection.value).intervals == r.intervals
  {
  }

  /** After a failed first construction the connection stays null and every probe tick is a no-op. */
  lemma FailedStartupNeverReconnects(iv: nat, constructed: bool, alreadyOpen: bool)
    ensures Startup(true, false).Some?
    ensures var c := Startup(true, false).value;
      c.intervals == {0} && ProbeTick(c, iv, constructed, alreadyOpen) == c
  {
  }

  /**
   Reconnect, then reload: a close on the live retrying connection starts a loop;
   a probe whose new connection later opens reloads exactly once and stops the
   loop, after which that loop no longer ticks.
   */
  lemma ReconnectThenReload(c: Client, k: nat, later: bool, laterOpen: bool)
    requires Valid(c) && c.connection == Some(k) && c.sockets[k].retryOnFail && !c.isClosing
    ensures var iv := c.nextInterval;
      var closed := OnClose(c, k);
      var probed := ProbeTick(closed, iv, true, false);
      var afterOpen := OnOpen(probed, probed.connection.value);
      && iv in closed.intervals
      && probed.reloads == c.reloads
      && afterOpen.reloads == c.reloads + [ReloadNow]
      && iv !in afterOpen.intervals
      && ProbeTick(afterOpen, iv, later, laterOpen) == afterOpen
  {
    var iv := c.nextInterval;
    var closed := OnClose(c, k);
    assert Valid(closed);
  }

  /**
   Navigation race: after beforeunload a close does not retry; when the grace
   timeout elapses with the page still there, retries are back on and a fresh
   retrying connection is made.
   */
  lemma NavigationRace(c: Client, k: nat)
    requires Valid(c) && c.connection == Some(k) && c.sockets[k].retryOnFail
    ensures var closed := OnClose(BeforeUnload(c), k);
      var resumed := UnloadTimerElapsed(closed, true);
      && closed.intervals == c.intervals
      && !resumed.isClosing
      && resumed.connection == Some(c.nextSocket)
      && resumed.sockets[c.nextSocket].retryOnFail
      && |OnClose(resumed, c.nextSocket).intervals| == |resumed.intervals| + 1
  {
    var closed := OnClose(BeforeUnload(c), k);
    var resumed := UnloadTimerElapsed(closed, true);
    assert Valid(resumed) by {
      StepPreservesValid(c, Unloading);
      StepPreservesValid(BeforeUnload(c), Close(k));
      StepPreservesValid(closed, UnloadGraceElapsed(true));
    }
  }
}

=== FILE: common.dfy ===
/** Small shared vocabulary: the optional value that stands in for a nullable reference. */
module Common {

  /** `None` plays the role of a null reference in the modelled C# and JavaScript. */
  datatype Option<+T> = None | Some(value: T)
}

=== FILE: configuration.dfy ===
/**
 The middleware's configuration record and its default values, together with the
 tri-state answer of the optional per-file inclusion filter.
 */
module Configuration {
  import opened Common

  /** Answer of the optional FileInclusionFilter for one changed file. */
  datatype FileInclusionMode =
    | ContinueProcessing  // fall through to the extension list
    | ForceRefresh        // refresh whatever the extension
    | DontRefresh         // never refresh for this file

  /**
   The settings consumed by the watcher and the script injection. Strings are
   never null here. For WebSocketHost and LiveReloadScriptUrl, which are tested
   with IsNullOrEmpty, and WebSocketUrl, which is only concatenated, the empty
   string stands for null as well; a null ClientFileExtensions, which is split,
   has no counterpart.
   */
  datatype Config = Config(
    liveReloadEnabled: bool,
    folderToMonitor: string,
    clientFileExtensions: string,
    fileInclusionFilter: Option<string -> FileInclusionMode>,
    serverRefreshTimeout: int,
    liveReloadScriptUrl: string,
    webSocketUrl: string,
    webSocketHost: string)

  const DefaultExtensions: string := ".cshtml,.css,.js,.htm,.html,.ts,.razor"
  const DefaultScriptUrl: string := "/__livereloadscript"
  const DefaultWebSocketUrl: string := "/__livereload"

  /** The property initialisers of a freshly constructed configuration. */
  const Default: Config := Config(
    liveReloadEnabled := true,
    folderToMonitor := "",
    clientFileExtensions := DefaultExtensions,
    fileInclusionFilter := None,
    serverRefreshTimeout := 0,
    liveReloadScriptUrl := DefaultScriptUrl,
    webSocketUrl := DefaultWebSocketUrl,
    webSocketHost := "")
}

=== FILE: defaults.dfy ===
/** What the default configuration means for the watcher and the injected block. */
module Defaults {
  import opened Common
  import opened Text
  import opened Configuration
  import opened FileWatcher
  import ScriptInjection

  const DefaultExtensionList: seq<string> := [".cshtml", ".css", ".js", ".htm", ".html", ".ts", ".razor"]

  /**
   The default extension setting splits into seven entries; `.live`, which the
   setting's documentation asks every list to include, is not among them.
   */
  lemma DefaultExtensionsParse()
    ensures ParseExtensions(Default.clientFileExtensions) == DefaultExtensionList
    ensures !ContainsIgnoreCase(ParseExtensions(Default.clientFileExtensions), ".live")
  {
    DefaultEntriesWellFormed();
    DefaultExtensionsJoin();
    SplitRemoveEmptyOfJoin(DefaultExtensionList, ',');
    LiveNotListed();
  }

  lemma DefaultEntriesWellFormed()
    ensures forall i :: 0 <= i < |DefaultExtensionList| ==>
              DefaultExtensionList[i] != [] && ',' !in DefaultExtensionList[i]
  {
    var p := DefaultExtensionList;
    assert ',' !in p[0] && ',' !in p[1] && ',' !in p[2] && ',' !in p[3];
    assert ',' !in p[4] && ',' !in p[5] && ',' !in p[6];
  }

  lemma LiveNotListed()
    ensures !ContainsIgnoreCase(DefaultExtensionList, ".live")
  {
    var parts := DefaultExtensionList;
    forall i | 0 <= i < |parts|
      ensures !EqualsIgnoreCase(parts[i], ".live")
    {
      if |parts[i]| == 5 {
        assert parts[i] == ".html";
        assert FoldCase(parts[i][1]) != FoldCase(".live"[1]);
      }
    }
  }

  /** The default setting is the seven entries joined with commas. */
  lemma DefaultExtensionsJoin()
    ensures Join(DefaultExtensionList, ',') == DefaultExtensions
  {
    JoinTailDefaults();
    assert DefaultExtensionList == [".cshtml"] + DefaultExtensionList[1..];
    JoinCons(".cshtml", DefaultExtensionList[1..], ',');
    DefaultExtensionsSpelled();
  }

  lemma DefaultExtensionsSpelled()
    ensures ".cshtml" + [','] + ".css,.js,.htm,.html,.ts,.razor" == DefaultExtensions
  {
  }

  lemma JoinTailDefaults()
    ensures Join(DefaultExtensionList[1..], ',') == ".css,.js,.htm,.html,.ts,.razor"
  {
    var t := DefaultExtensionList[1..];
    assert t == [".css", ".js", ".htm"] + [".html", ".ts", ".razor"];
    JoinShort();
    JoinAppend([".css", ".js", ".htm"], [".html", ".ts", ".razor"], ',');
  }

  lemma JoinShort()
    ensures Join([".css", ".js", ".htm"], ',') == ".css,.js,.htm"
    ensures Join([".html", ".ts", ".razor"], ',') == ".html,.ts,.razor"
  {
    JoinCons(".js", [".htm"], ',');
    assert [".css", ".js", ".htm"][1..] == [".js", ".htm"];
    JoinCons(".ts", [".razor"], ',');
    assert [".html", ".ts", ".razor"][1..] == [".ts", ".razor"];
  }

  /** Under the defaults (timeout 0) no refresh ever carries the delay hint. */
  lemma DefaultNeverDelays(st: WatcherState, path: string, now: int)
    ensures var d := FileChanged(st, Default, path, now).decision;
      (d.Immediate? || d.Debounced?) ==> !d.delayed
  {
  }

  /** With no filter configured, the defaults refresh `x.CSS` (case-insensitively listed) and not `x.txt`. */
  lemma DefaultCssRefreshesTxtDoesNot(st: WatcherState, now: int)
    requires st.extensionList == None || st.extensionList == Some(DefaultExtensionList)
    requires !st.isFolderCreated
    ensures FileChanged(st, Default, "x.CSS", now).decision == Immediate(false)
    ensures FileChanged(st, Default, "x.txt", now).decision == NoRefresh
  {
    DefaultExtensionsParse();
    assert EffectiveList(st, Default) == DefaultExtensionList;
    CssIsListed();
    TxtIsNotListed();
  }

  lemma CssIsListed()
    ensures GetExtension("x.CSS") == ".CSS"
    ensures Qualifies(Default, DefaultExtensionList, "x.CSS")
  {
    assert IsExtensionStart("x.CSS", 1);
    assert "x.CSS"[1..] == ".CSS";
    assert EqualsIgnoreCase(DefaultExtensionList[1], ".CSS");
  }

  lemma TxtIsNotListed()
    ensures GetExtension("x.txt") == ".txt"
    ensures !Qualifies(Default, DefaultExtensionList, "x.txt")
  {
    assert IsExtensionStart("x.txt", 1);
    assert "x.txt"[1..] == ".txt";
    var list := DefaultExtensionList;
    forall i | 0 <= i < |list|
      ensures !EqualsIgnoreCase(list[i], ".txt")
    {
      if |list[i]| == 4 {
        assert FoldCase(list[i][1]) != FoldCase(".txt"[1]);
      }
    }
  }

  /** By default the block references the script URL instead of inlining the script. */
  lemma DefaultBlockReferencesScript(req: ScriptInjection.Request, clientScript: string)
    ensures ScriptInjection.Block(Default, req, clientScript) ==
            ScriptInjection.BlockHeader + "<script src=\"" + DefaultScriptUrl + "\"></script>" + ScriptInjection.BlockFooter
  {
    assert Default.liveReloadScriptUrl == DefaultScriptUrl;
    assert DefaultScriptUrl != [];
  }

  /** By default the client connects to ws(s)://host:port/__livereload. */
  lemma DefaultHostString(req: ScriptInjection.Request)
    ensures ScriptInjection.HostString(Default, req) ==
            (if req.isHttps then "wss" else "ws") + "://" + req.host + ":" + req.port + DefaultWebSocketUrl
  {
  }
}

=== FILE: filewatcher.dfy ===
/**
 The LiveReloadFileWatcher: the per-file refresh decision, the cached extension
 list, and the lifecycle of the two FileSystemWatcher handles (one recursive
 watcher on the monitored folder, one on its parent filtered to the folder's own
 name). The static fields of the class are one `WatcherState` value; each
 handler is a pure transition. OS event delivery, path resolution and the
 broadcaster call stay outside: events are inputs and refresh requests outputs.
 */
module FileWatcher {
  import opened Common
  import opened Text
  import opened Configuration
  import Throttling

  /** Debounce interval used while the monitored folder has just been re-created. */
  const FolderCreatedDebounceMs: int := 2000

  /** Paths containing this backslash-delimited segment never refresh. */
  const NodeModulesSegment: string := "\\node_modules\\"

  /**
   The closure passed to Debounce after a folder re-creation: request a refresh
   with the hint captured at that call, then clear the folder-created flag.
   */
  datatype RefreshAction = RequestRefreshAndClearFlag(delayed: bool)

  datatype WatcherState = WatcherState(
    fileWatcher: bool,                  // _fileWatcher is a live handle
    folderWatcher: bool,                // _folderWatcher is a live handle
    leakedHandles: nat,                 // handles overwritten while still live, never disposed
    monitoredName: Option<string>,      // _folderToMonitorName
    isFolderCreated: bool,              // _isFolderCreated
    extensionList: Option<seq<string>>, // _extensionList, built on first use
    throttlerAttached: bool,            // _throttler still refers to the timer
    timer: Throttling.Timer<RefreshAction>)

  /** The static initialisers, with the throttler's timer created at `now`. */
  function Initial(now: int): (st: WatcherState)
    ensures !st.fileWatcher && !st.folderWatcher && st.leakedHandles == 0
    ensures !st.isFolderCreated && st.extensionList == None && st.throttlerAttached
    ensures Throttling.Valid(st.timer) && st.timer.handlers == []
  {
    WatcherState(false, false, 0, None, false, None, true, Throttling.Create(now))
  }

  // ---- Path.GetExtension ----

  predicate IsSeparator(c: char) {
    c == '/' || c == '\\'
  }

  /**
   `k` starts the path's extension: a dot that is not the last character, with
   no further dot or directory separator after it.
   */
  predicate IsExtensionStart(path: string, k: int) {
    0 <= k < |path| - 1 && path[k] == '.' &&
    forall j :: k < j < |path| ==> path[j] != '.' && !IsSeparator(path[j])
  }

  /** Scans `path[..i]` backwards; nothing from `i` on is a dot or a separator. */
  function ExtensionBefore(path: string, i: nat): (ext: string)
    requires i <= |path|
    requires forall j :: i <= j < |path| ==> path[j] != '.' && !IsSeparator(path[j])
    ensures ext != [] ==> IsExtensionStart(path, |path| - |ext|) && ext == path[|path| - |ext|..]
    ensures forall k :: IsExtensionStart(path, k) ==> ext == path[k..]
    decreases i
  {
    if i == 0 then []
    else if path[i - 1] == '.' then
      if i == |path| then [] else path[i - 1..]
    else if IsSeparator(path[i - 1]) then []
    else ExtensionBefore(path, i - 1)
  }

  /**
   Path.GetExtension: the text from the last dot of the file name, or empty when
   the name has no dot or ends with one.
   */
  function GetExtension(path: string): (ext: string)
    ensures ext == [] <==> forall k :: !IsExtensionStart(path, k)
    ensures ext != [] ==> IsExtensionStart(path, |path| - |ext|) && ext == path[|path| - |ext|..]
    ensures ext != [] ==> ext[0] == '.' && |ext| >= 2
    ensures forall k :: IsExtensionStart(path, k) ==> ext == path[k..]
  {
    ExtensionBefore(path, |path|)
  }

  // ---- the extension list ----

  /** ClientFileExtensions.Split(',', RemoveEmptyEntries): untrimmed, non-empty entries. */
  function ParseExtensions(setting: string): (list: seq<string>)
    ensures forall i :: 0 <= i < |list| ==> list[i] != [] && ',' !in list[i]
  {
    SplitRemoveEmpty(setting, ',')
  }

  /**
   Any setting is its entries joined by commas; parsing it keeps the non-empty
   entries in order and drops the empty ones (RemoveEmptyEntries).
   */
  lemma ParseExtensionsDropsEmptyEntries(entries: seq<string>)
    requires forall i :: 0 <= i < |entries| ==> ',' !in entries[i]
    ensures ParseExtensions(Join(entries, ',')) == RemoveEmpty(entries)
  {
    SplitRemoveEmptyOfJoinDropsEmpty(entries, ',');
  }

  /** A trailing comma adds no entry. */
  lemma TrailingCommaAddsNoEntry()
    ensures ParseExtensions(".css,") == [".css"]
  {
    JoinCons(".css", [""], ',');
    assert [".css"] + [""] == [".css", ""];
    assert Join([".css", ""], ',') == ".css,";
    ParseExtensionsDropsEmptyEntries([".css", ""]);
    assert [".css", ""][1..] == [""];
    assert RemoveEmpty([""]) == RemoveEmpty([""][1..]) == [];
  }

  /** The list a change is compared against: the cached one, else the configured one. */
  function EffectiveList(st: WatcherState, cfg: Config): seq<string> {
    match st.extensionList
    case Some(list) => list
    case None => ParseExtensions(cfg.clientFileExtensions)
  }

  // ---- the per-file decision ----

  /** The configured filter's verdict, ContinueProcessing when none is configured. */
  function InclusionMode(cfg: Config, path: string): FileInclusionMode {
    match cfg.fileInclusionFilter
    case None => ContinueProcessing
    case Some(filter) => filter(path)
  }

  /** Paths dropped before the filter is asked: empty, under node_modules, or without extension. */
  predicate IgnoredPath(path: string) {
    path == [] || Contains(path, NodeModulesSegment) || GetExtension(path) == []
  }

  /**
   When a change to `path` asks for a refresh, stated declaratively: enabled, not
   ignored, not vetoed, and either forced or listed (ignoring case).
   */
  predicate Qualifies(cfg: Config, list: seq<string>, path: string) {
    && cfg.liveReloadEnabled
    && !IgnoredPath(path)
    && match InclusionMode(cfg, path)
       case DontRefresh => false
       case ForceRefresh => true
       case ContinueProcessing =>
         exists i :: 0 <= i < |list| && EqualsIgnoreCase(list[i], GetExtension(path))
  }

  /** The outcome of the decision pipeline for one changed path, before any state is touched. */
  datatype Verdict =
    | Dropped                // disabled, ignored path, or vetoed by the filter
    | Unlisted               // reached the extension list, but neither forced nor listed
    | Refresh(delayed: bool) // a refresh is due, with the server-recompile hint

  /**
   The pipeline of FileChanged in the source's order, against the extension
   list `list`.
   */
  function Decide(cfg: Config, list: seq<string>, path: string): (r: Verdict)
    ensures r.Dropped? <==>
              !cfg.liveReloadEnabled || IgnoredPath(path) || InclusionMode(cfg, path) == DontRefresh
    ensures r.Refresh? <==> Qualifies(cfg, list, path)
    ensures r.Refresh? ==>
              (r.delayed <==> cfg.serverRefreshTimeout > 0 && GetExtension(path) in {".cshtml", ".razor"})
  {
    if !cfg.liveReloadEnabled || IgnoredPath(path) then Dropped
    else
      var ext := GetExtension(path);
      var mode := InclusionMode(cfg, path);
      if mode == DontRefresh then Dropped
      else if mode == ForceRefresh || ContainsIgnoreCase(list, ext) then
        Refresh(cfg.serverRefreshTimeout > 0 && (ext == ".cshtml" || ext == ".razor"))
      else Unlisted
  }

  datatype ChangeDecision =
    | NoRefresh
    | Immediate(delayed: bool)   // RefreshWebSocketRequest(delayed) called at once
    | Debounced(delayed: bool)   // a 2000 ms Debounce of that request was scheduled
    | ThrottlerMissing           // the Debounce call dereferenced a null _throttler

  datatype Changed = Changed(state: WatcherState, decision: ChangeDecision)

  /** A decision that attempted a refresh. */
  predicate Attempted(d: ChangeDecision) {
    !d.NoRefresh?
  }

  /**
   The refresh request once a change qualifies: immediate, or a 2000 ms debounce
   while the folder-created flag is up.
   */
  function RequestRefresh(st: WatcherState, delayed: bool, now: int): (r: Changed)
    ensures !st.isFolderCreated ==> r == Changed(st, Immediate(delayed))
    ensures st.isFolderCreated && !st.throttlerAttached ==> r == Changed(st, ThrottlerMissing)
    ensures st.isFolderCreated && st.throttlerAttached ==>
              && r.decision == Debounced(delayed)
              && r.state == st.(timer := r.state.timer)
              && r.state.timer.enabled
              && r.state.timer.DueAt() == now + FolderCreatedDebounceMs
              && r.state.timer.handlers == st.timer.handlers + [RequestRefreshAndClearFlag(delayed)]
    ensures Throttling.Valid(st.timer) ==> Throttling.Valid(r.state.timer)
  {
    if !st.isFolderCreated then Changed(st, Immediate(delayed))
    else if !st.throttlerAttached then Changed(st, ThrottlerMissing)
    else
      var call := Throttling.Debounce(st.timer, now, FolderCreatedDebounceMs, RequestRefreshAndClearFlag(delayed));
      Changed(st.(timer := call.timer), Debounced(delayed))
  }

  /**
   FileChanged(path) at time `now`, as delivered by the recursive watcher. The
   extension list is cached as soon as a change gets past the filter.
   */
  function FileChanged(st: WatcherState, cfg: Config, path: string, now: int): (r: Changed)
    ensures !cfg.liveReloadEnabled || IgnoredPath(path) ==> r == Changed(st, NoRefresh)
    ensures InclusionMode(cfg, path) == DontRefresh ==> r == Changed(st, NoRefresh)
    ensures Attempted(r.decision) <==> Qualifies(cfg, EffectiveList(st, cfg), path)
    ensures r.decision.Immediate? || r.decision.Debounced? ==>
              (r.decision.delayed <==>
                 cfg.serverRefreshTimeout > 0 && GetExtension(path) in {".cshtml", ".razor"})
    ensures Attempted(r.decision) ==>
              && (!st.isFolderCreated ==> r.decision.Immediate?)
              && (st.isFolderCreated && st.throttlerAttached ==> r.decision.Debounced?)
              && (st.isFolderCreated && !st.throttlerAttached ==> r.decision.ThrottlerMissing?)
    ensures r.decision.Debounced? ==>
              && r.state.timer.enabled
              && r.state.timer.DueAt() == now + FolderCreatedDebounceMs
              && r.state.timer.handlers == st.timer.handlers + [RequestRefreshAndClearFlag(r.decision.delayed)]
    ensures !r.decision.Debounced? ==> r.state.timer == st.timer
    ensures r.state.extensionList ==
              if cfg.liveReloadEnabled && !IgnoredPath(path) && InclusionMode(cfg, path) != DontRefresh
              then Some(EffectiveList(st, cfg)) else st.extensionList
    ensures r.state == st.(extensionList := r.state.extensionList, timer := r.state.timer)
    ensures Throttling.Valid(st.timer) ==> Throttling.Valid(r.state.timer)
  {
    var list := EffectiveList(st, cfg);
    match Decide(cfg, list, path)
    case Dropped => Changed(st, NoRefresh)
    case Unlisted => Changed(st.(extensionList := Some(list)), NoRefresh)
    case Refresh(delayed) => RequestRefresh(st.(extensionList := Some(list)), delayed, now)
  }

  /** Empty, node_modules and extensionless paths never reach the filter: its answer cannot matter. */
  lemma IgnoredPathSkipsFilter(st: WatcherState, cfg: Config, path: string, now: int,
                               filter: Option<string -> FileInclusionMode>)
    requires IgnoredPath(path)
    ensures FileChanged(st, cfg.(fileInclusionFilter := filter), path, now) == FileChanged(st, cfg, path, now)
    ensures FileChanged(st, cfg, path, now).decision == NoRefresh
  {
  }

  /**
   The extension list is built once: once cached, a change in the configured
   extensions has no effect on later decisions.
   */
  lemma ExtensionListNeverRebuilt(st: WatcherState, cfg: Config, path: string, now: int, list: seq<string>)
    requires st.extensionList == Some(list)
    ensures FileChanged(st, cfg, path, now).state.extensionList == Some(list)
    ensures FileChanged(st, cfg.(clientFileExtensions := []), path, now) == FileChanged(st, cfg, path, now)
  {
  }

  // ---- watcher lifecycle ----

  /** StartFilesWatcher: a new recursive watcher; a live one is overwritten without disposal. */
  function StartFilesWatcher(st: WatcherState): (r: WatcherState)
    ensures r.fileWatcher
    ensures r.leakedHandles == st.leakedHandles + (if st.fileWatcher then 1 else 0)
    ensures r == st.(fileWatcher := true, leakedHandles := r.leakedHandles)
  {
    st.(fileWatcher := true, leakedHandles := st.leakedHandles + if st.fileWatcher then 1 else 0)
  }

  /** StartFolderWatcher: a new parent-folder watcher; a live one is overwritten without disposal. */
  function StartFolderWatcher(st: WatcherState): (r: WatcherState)
    ensures r.folderWatcher
    ensures r.leakedHandles == st.leakedHandles + (if st.folderWatcher then 1 else 0)
    ensures r == st.(folderWatcher := true, leakedHandles := r.leakedHandles)
  {
    st.(folderWatcher := true, leakedHandles := st.leakedHandles + if st.folderWatcher then 1 else 0)
  }

  /**
   StartFileWatcher: when enabled, records the monitored folder's name (resolved
   from the configured path outside the model) and starts both watchers.
   */
  function StartFileWatcher(st: WatcherState, cfg: Config, resolvedName: string): (r: WatcherState)
    ensures !cfg.liveReloadEnabled ==> r == st
    ensures cfg.liveReloadEnabled ==>
              && r.fileWatcher && r.folderWatcher
              && r.monitoredName == Some(resolvedName)
              && r.leakedHandles == st.leakedHandles + (if st.fileWatcher then 1 else 0)
                                                     + (if st.folderWatcher then 1 else 0)
              && r.isFolderCreated == st.isFolderCreated
              && r.extensionList == st.extensionList
              && r.throttlerAttached == st.throttlerAttached && r.timer == st.timer
  {
    if !cfg.liveReloadEnabled then st
    else StartFolderWatcher(StartFilesWatcher(st.(monitoredName := Some(resolvedName))))
  }

  /** DisposeFilesWatcher: unsubscribe and dispose the recursive watcher, if any. */
  function DisposeFilesWatcher(st: WatcherState): (r: WatcherState)
    ensures !r.fileWatcher
    ensures r == st.(fileWatcher := false)
  {
    if st.fileWatcher then st.(fileWatcher := false) else st
  }

  lemma DisposeFilesWatcherIdempotent(st: WatcherState)
    ensures DisposeFilesWatcher(DisposeFilesWatcher(st)) == DisposeFilesWatcher(st)
    ensures !st.fileWatcher ==> DisposeFilesWatcher(st) == st
  {
  }

  /** A handler that either ran to completion or stopped at a null dereference. */
  datatype Completion = Completed(state: WatcherState) | NullReference(state: WatcherState)

  /**
   DisposeFolderWatcher as written: its test is inverted, so a live folder
   watcher is left alone, and with no folder watcher the first unsubscription
   dereferences null.
   */
  function DisposeFolderWatcher(st: WatcherState): (r: Completion)
    ensures st.folderWatcher <==> r.Completed?
    ensures r.state == st
  {
    if !st.folderWatcher then NullReference(st) else Completed(st)
  }

  /**
   StopFileWatcher: dispose the file watcher, then the folder watcher, then drop
   the throttler reference; the last step is skipped when the folder-watcher
   disposal throws.
   */
  function StopFileWatcher(st: WatcherState): (r: Completion)
    ensures !r.state.fileWatcher
    ensures r.state.folderWatcher == st.folderWatcher
    ensures st.folderWatcher ==> r == Completed(st.(fileWatcher := false, throttlerAttached := false))
    ensures !st.folderWatcher ==> r == NullReference(st.(fileWatcher := false))
  {
    var disposed := DisposeFilesWatcher(st);
    match DisposeFolderWatcher(disposed)
    case NullReference(s) => NullReference(s)
    case Completed(s) => Completed(s.(throttlerAttached := false))
  }

  /** FolderWatcher_Created: flag the re-creation and start a new file watcher. */
  function FolderCreated(st: WatcherState): (r: WatcherState)
    ensures r.isFolderCreated && r.fileWatcher
    ensures r.leakedHandles == st.leakedHandles + (if st.fileWatcher then 1 else 0)
    ensures r == st.(isFolderCreated := true, fileWatcher := true, leakedHandles := r.leakedHandles)
  {
    StartFilesWatcher(st.(isFolderCreated := true))
  }

  /** FolderWatcher_Deleted: dispose the file watcher. */
  function FolderDeleted(st: WatcherState): (r: WatcherState)
    ensures r == st.(fileWatcher := false)
  {
    DisposeFilesWatcher(st)
  }

  /** The monitored name equals `name` under OrdinalIgnoreCase. */
  predicate IsMonitoredName(st: WatcherState, name: string) {
    st.monitoredName.Some? && EqualsIgnoreCase(name, st.monitoredName.value)
  }

  /**
   FolderWatcher_Renamed(newName, oldName): renamed to the monitored name is a
   full restart, renamed away from it disposes the file watcher, anything else
   is ignored.
   */
  function FolderRenamed(st: WatcherState, cfg: Config, resolvedName: string,
                         newName: string, oldName: string): (r: WatcherState)
    ensures IsMonitoredName(st, newName) ==> r == StartFileWatcher(st, cfg, resolvedName)
    ensures !IsMonitoredName(st, newName) && IsMonitoredName(st, oldName) ==> r == st.(fileWatcher := false)
    ensures !IsMonitoredName(st, newName) && !IsMonitoredName(st, oldName) ==> r == st
  {
    if IsMonitoredName(st, newName) then StartFileWatcher(st, cfg, resolvedName)
    else if IsMonitoredName(st, oldName) then DisposeFilesWatcher(st)
    else st
  }

  // ---- the debounce firing ----

  datatype TimerFired = TimerFired(state: WatcherState, refreshRequests: seq<bool>)

  function RequestsOf(actions: seq<RefreshAction>): (r: seq<bool>)
    ensures |r| == |actions|
    ensures forall i :: 0 <= i < |actions| ==> r[i] == actions[i].delayed
    decreases |actions|
  {
    if |actions| == 0 then [] else [actions[0].delayed] + RequestsOf(actions[1..])
  }

  /**
   The throttler's timer elapsing at `now`. The timer object outlives the
   `_throttler` reference, so this happens whether or not it is still attached.
   */
  function TimerElapsed(st: WatcherState, now: int): (r: TimerFired)
    ensures |r.refreshRequests| <= 1
    ensures r.refreshRequests == [] ==> r.state == st.(timer := r.state.timer)
    ensures r.refreshRequests != [] ==>
              && |st.timer.handlers| > 0
              && r.refreshRequests == [st.timer.handlers[0].delayed]
              && r.state == st.(timer := r.state.timer, isFolderCreated := false)
    ensures !st.timer.enabled || now < st.timer.DueAt() ==> r == TimerFired(st, [])
    ensures st.timer.enabled && now >= st.timer.DueAt() && |st.timer.handlers| > 0 ==> r.refreshRequests != []
    ensures Throttling.Valid(st.timer) ==> Throttling.Valid(r.state.timer)
  {
    var e := Throttling.Elapse(st.timer, now);
    var fired := st.(timer := e.timer);
    if |e.invoked| == 0 then TimerFired(fired, [])
    else TimerFired(fired.(isFolderCreated := false), RequestsOf(e.invoked))
  }

  // ---- the folder re-creation burst ----

  /** The state after FileChanged for each (time, path) of `events`, in order. */
  function ChangeAll(st: WatcherState, cfg: Config, events: seq<(int, string)>): WatcherState
    decreases |events|
  {
    if |events| == 0 then st
    else ChangeAll(FileChanged(st, cfg, events[0].1, events[0].0).state, cfg, events[1..])
  }

  /** Under the flag, one qualifying change re-arms the debounce and keeps the flag, throttler and list. */
  lemma QualifyingChangeRearms(st: WatcherState, cfg: Config, path: string, now: int)
    requires st.isFolderCreated && st.throttlerAttached && Throttling.Valid(st.timer)
    requires Qualifies(cfg, EffectiveList(st, cfg), path)
    ensures var next := FileChanged(st, cfg, path, now).state;
      && next.isFolderCreated && next.throttlerAttached
      && Throttling.Valid(next.timer) && next.timer.enabled
      && next.timer.DueAt() == now + FolderCreatedDebounceMs
      && EffectiveList(next, cfg) == EffectiveList(st, cfg)
  {
    var r := FileChanged(st, cfg, path, now);
    assert r.decision.Debounced?;
  }

  /** While the folder-created flag is up, every qualifying change re-arms the 2000 ms debounce. */
  lemma {:induction false} ChangeAllKeepsDebouncing(st: WatcherState, cfg: Config, list: seq<string>,
                                                    events: seq<(int, string)>)
    requires st.isFolderCreated && st.throttlerAttached && Throttling.Valid(st.timer)
    requires |events| > 0 && EffectiveList(st, cfg) == list
    requires forall i :: 0 <= i < |events| ==> Qualifies(cfg, list, events[i].1)
    ensures ChangeAll(st, cfg, events).isFolderCreated
    ensures Throttling.Valid(ChangeAll(st, cfg, events).timer)
    ensures ChangeAll(st, cfg, events).timer.enabled
    ensures ChangeAll(st, cfg, events).timer.DueAt() == events[|events| - 1].0 + FolderCreatedDebounceMs
    decreases |events|
  {
    var e := events[0];
    var next := FileChanged(st, cfg, e.1, e.0).state;
    assert Qualifies(cfg, list, e.1);
    QualifyingChangeRearms(st, cfg, e.1, e.0);
    var rest := events[1..];
    var end := ChangeAll(next, cfg, rest);
    assert ChangeAll(st, cfg, events) == end;
    if |rest| == 0 {
      assert end == next;
    } else {
      forall i | 0 <= i < |rest|
        ensures Qualifies(cfg, list, rest[i].1)
      {
        assert rest[i] == events[i + 1];
      }
      ChangeAllKeepsDebouncing(next, cfg, list, rest);
      assert rest[|rest| - 1] == events[|events| - 1];
    }
  }

  /**
   A burst of qualifying changes after a folder re-creation yields one refresh
   request, no earlier than 2000 ms after the burst's last change, and clears
   the flag; its hint is the one captured by the timer's oldest handler.
   */
  lemma RecreateBurstRefreshesOnce(st: WatcherState, cfg: Config, events: seq<(int, string)>, now: int)
    requires st.isFolderCreated && st.throttlerAttached && Throttling.Valid(st.timer)
    requires |events| > 0
    requires forall i :: 0 <= i < |events| ==> Qualifies(cfg, EffectiveList(st, cfg), events[i].1)
    ensures var end := ChangeAll(st, cfg, events);
      && (now < events[|events| - 1].0 + FolderCreatedDebounceMs ==>
            TimerElapsed(end, now) == TimerFired(end, []))
      && (now >= events[|events| - 1].0 + FolderCreatedDebounceMs ==>
            && |end.timer.handlers| > 0
            && TimerElapsed(end, now).refreshRequests == [end.timer.handlers[0].delayed]
            && !TimerElapsed(end, now).state.isFolderCreated
            && TimerElapsed(TimerElapsed(end, now).state, now).refreshRequests == [])
  {
    ChangeAllKeepsDebouncing(st, cfg, EffectiveList(st, cfg), events);
  }

  /**
   As written, the first closure ever debounced decides every later refresh's
   hint: after the timer has once been armed, a new debounced refresh fires with
   the oldest closure's hint, whatever hint the new change carries.
   */
  lemma FirstHintSticks(st: WatcherState, delayed: bool, now: int)
    requires st.isFolderCreated && st.throttlerAttached && Throttling.Valid(st.timer)
    requires |st.timer.handlers| > 0
    ensures TimerElapsed(RequestRefresh(st, delayed, now).state, now + FolderCreatedDebounceMs).refreshRequests
            == [st.timer.handlers[0].delayed]
  {
    var armed := RequestRefresh(st, delayed, now).state;
    assert armed.timer.handlers[0] == st.timer.handlers[0];
  }

  /**
   A stale hint on a fresh throttler: a delayed refresh after one re-creation,
   then a plain one after the next, and the second is still sent as delayed.
   */
  lemma SecondRecreationKeepsFirstHint(st: WatcherState)
    requires st.isFolderCreated && st.throttlerAttached && Throttling.Valid(st.timer)
    requires st.timer.handlers == []
    ensures var first := TimerElapsed(RequestRefresh(st, true, 0).state, 2000);
      var second := TimerElapsed(RequestRefresh(FolderCreated(first.state), false, 5000).state, 7000);
      first.refreshRequests == [true] && second.refreshRequests == [true]
  {
    var first := TimerElapsed(RequestRefresh(st, true, 0).state, 2000);
    assert first.state.timer.handlers == [RequestRefreshAndClearFlag(true)];
    FirstHintSticks(FolderCreated(first.state), false, 5000);
  }

  /**
   RequestRefresh with the intended Debounce, which keeps only the latest
   closure; it decides exactly as RequestRefresh does.
   */
  function RequestRefreshIntended(st: WatcherState, delayed: bool, now: int): (r: Changed)
    ensures r.decision == RequestRefresh(st, delayed, now).decision
    ensures r.state == RequestRefresh(st, delayed, now).state.(timer := r.state.timer)
    ensures st.isFolderCreated && st.throttlerAttached ==>
              r.state.timer == RequestRefresh(st, delayed, now).state.timer.(handlers := [RequestRefreshAndClearFlag(delayed)])
    ensures Throttling.Valid(st.timer) ==> Throttling.Valid(r.state.timer)
  {
    if !st.isFolderCreated then Changed(st, Immediate(delayed))
    else if !st.throttlerAttached then Changed(st, ThrottlerMissing)
    else
      var call := Throttling.DebounceIntended(st.timer, now, FolderCreatedDebounceMs, RequestRefreshAndClearFlag(delayed));
      Changed(st.(timer := call.timer), Debounced(delayed))
  }

  /** With the intended Debounce, a debounced refresh fires once with the latest change's hint. */
  lemma IntendedRefreshUsesLatestHint(st: WatcherState, delayed: bool, now: int, later: int)
    requires st.isFolderCreated && st.throttlerAttached && Throttling.Valid(st.timer)
    ensures var fired := TimerElapsed(RequestRefreshIntended(st, delayed, now).state, now + FolderCreatedDebounceMs);
      && fired.refreshRequests == [delayed]
      && TimerElapsed(fired.state, later).refreshRequests == []
  {
    var armed := RequestRefreshIntended(st, delayed, now).state;
    assert armed.timer.enabled && armed.timer.DueAt() == now + FolderCreatedDebounceMs;
  }

  /** The state after a stream of changes, and the refresh requests issued along the way, in order. */
  datatype ChangeRunResult = ChangeRunResult(state: WatcherState, refreshRequests: seq<bool>)

  /**
   FileChanged for each (time, path) of `events`, in order, with the throttler's
   timer observed at each event's time just before the change is handled. Both
   debounced firings and immediate refreshes are recorded.
   */
  function ChangeRun(st: WatcherState, cfg: Config, events: seq<(int, string)>): ChangeRunResult
    decreases |events|
  {
    if |events| == 0 then ChangeRunResult(st, [])
    else
      var fired := TimerElapsed(st, events[0].0);
      var o := FileChanged(fired.state, cfg, events[0].1, events[0].0);
      var immediate := if o.decision.Immediate? then [o.decision.delayed] else [];
      var next := ChangeRun(o.state, cfg, events[1..]);
      ChangeRunResult(next.state, fired.refreshRequests + immediate + next.refreshRequests)
  }

  /** Each change comes less than the debounce interval after the previous one. */
  predicate CloseChanges(events: seq<(int, string)>) {
    forall i :: 0 < i < |events| ==> events[i].0 < events[i - 1].0 + FolderCreatedDebounceMs
  }

  /**
   Under the flag, a burst of qualifying changes less than 2000 ms apart, the
   first before any pending firing, requests no refresh while it lasts and ends
   in the state ChangeAll describes.
   */
  lemma {:induction false} ChangeRunQuiet(st: WatcherState, cfg: Config, list: seq<string>,
                                          events: seq<(int, string)>)
    requires st.isFolderCreated && st.throttlerAttached && Throttling.Valid(st.timer)
    requires |events| > 0 && EffectiveList(st, cfg) == list
    requires forall i :: 0 <= i < |events| ==> Qualifies(cfg, list, events[i].1)
    requires st.timer.enabled ==> events[0].0 < st.timer.DueAt()
    requires CloseChanges(events)
    ensures ChangeRun(st, cfg, events).refreshRequests == []
    ensures ChangeRun(st, cfg, events).state == ChangeAll(st, cfg, events)
    decreases |events|
  {
    var e := events[0];
    assert Qualifies(cfg, list, e.1);
    assert TimerElapsed(st, e.0) == TimerFired(st, []);
    var o := FileChanged(st, cfg, e.1, e.0);
    assert o.decision.Debounced?;
    QualifyingChangeRearms(st, cfg, e.1, e.0);
    var next := o.state;
    var rest := events[1..];
    assert ChangeRun(st, cfg, events) == ChangeRun(next, cfg, rest);
    assert ChangeAll(st, cfg, events) == ChangeAll(next, cfg, rest);
    if |rest| > 0 {
      assert rest[0] == events[1];
      forall i | 0 <= i < |rest|
        ensures Qualifies(cfg, list, rest[i].1)
      {
        assert rest[i] == events[i + 1];
      }
      assert CloseChanges(rest) by {
        forall i | 0 < i < |rest|
          ensures rest[i].0 < rest[i - 1].0 + FolderCreatedDebounceMs
        {
          assert rest[i] == events[i + 1] && rest[i - 1] == events[i];
        }
      }
      ChangeRunQuiet(next, cfg, list, rest);
    }
  }

  /**
   The folder re-creation burst observed throughout: no refresh during the burst,
   none before 2000 ms after its last change, then exactly one.
   */
  lemma RecreateBurstRunRefreshesOnce(st: WatcherState, cfg: Config, events: seq<(int, string)>, now: int)
    requires st.isFolderCreated && st.throttlerAttached && Throttling.Valid(st.timer)
    requires |events| > 0
    requires forall i :: 0 <= i < |events| ==> Qualifies(cfg, EffectiveList(st, cfg), events[i].1)
    requires st.timer.enabled ==> events[0].0 < st.timer.DueAt()
    requires CloseChanges(events)
    ensures var run := ChangeRun(st, cfg, events);
      && run.refreshRequests == []
      && (now < events[|events| - 1].0 + FolderCreatedDebounceMs ==>
            TimerElapsed(run.state, now).refreshRequests == [])
      && (now >= events[|events| - 1].0 + FolderCreatedDebounceMs ==>
            && |TimerElapsed(run.state, now).refreshRequests| == 1
            && TimerElapsed(TimerElapsed(run.state, now).state, now).refreshRequests == [])
  {
    ChangeRunQuiet(st, cfg, EffectiveList(st, cfg), events);
    RecreateBurstRefreshesOnce(st, cfg, events, now);
  }

  /** Dropping the throttler reference does not cancel a pending debounce. */
  lemma PendingDebounceSurvivesStop(st: WatcherState, now: int)
    requires st.folderWatcher && Throttling.Valid(st.timer) && st.timer.enabled
    requires now >= st.timer.DueAt()
    ensures StopFileWatcher(st).Completed?
    ensures !StopFileWatcher(st).state.throttlerAttached
    ensures |TimerElapsed(StopFileWatcher(st).state, now).refreshRequests| == 1
  {
  }

  /** Once stopped, a change after a folder re-creation dereferences the null throttler. */
  lemma RecreateAfterStopHitsNullThrottler(st: WatcherState, cfg: Config, path: string, now: int)
    requires st.folderWatcher
    requires Qualifies(cfg, EffectiveList(st, cfg), path)
    ensures var stopped := StopFileWatcher(st).state;
      FileChanged(FolderCreated(stopped), cfg, path, now).decision == ThrottlerMissing
  {
    var stopped := StopFileWatcher(st).state;
    assert EffectiveList(FolderCreated(stopped), cfg) == EffectiveList(st, cfg);
  }

  // ---- all events ----

  datatype WatcherEvent =
    | FileEvent(path: string)
    | FolderCreatedEvent
    | FolderDeletedEvent
    | FolderRenamedEvent(newName: string, oldName: string)
    | ThrottlerElapsed
    | StopRequested

  /** The watcher's state after one event at time `now`. */
  function Step(st: WatcherState, cfg: Config, resolvedName: string, now: int, ev: WatcherEvent): WatcherState {
    match ev
    case FileEvent(path) => FileChanged(st, cfg, path, now).state
    case FolderCreatedEvent => FolderCreated(st)
    case FolderDeletedEvent => FolderDeleted(st)
    case FolderRenamedEvent(newName, oldName) => FolderRenamed(st, cfg, resolvedName, newName, oldName)
    case ThrottlerElapsed => TimerElapsed(st, now).state
    case StopRequested => StopFileWatcher(st).state
  }

  /**
   Every event keeps the timer well formed, never re-attaches a dropped
   throttler, never forgets a leaked handle, and never un-caches the list.
   */
  lemma StepInvariants(st: WatcherState, cfg: Config, resolvedName: string, now: int, ev: WatcherEvent)
    requires Throttling.Valid(st.timer)
    ensures Preserves(st, Step(st, cfg, resolvedName, now, ev))
  {
    match ev
    case FileEvent(path) =>
      var o := FileChanged(st, cfg, path, now);
      assert Preserves(st, o.state);
    case FolderCreatedEvent =>
    case FolderDeletedEvent =>
    case FolderRenamedEvent(newName, oldName) =>
      assert Preserves(st, FolderRenamed(st, cfg, resolvedName, newName, oldName));
    case ThrottlerElapsed =>
      assert Preserves(st, TimerElapsed(st, now).state);
    case StopRequested =>
      assert Preserves(st, StopFileWatcher(st).state);
  }

  /** The facts every event keeps about the state it starts from. */
  ghost predicate Preserves(st: WatcherState, r: WatcherState) {
    && Throttling.Valid(r.timer)
    && (r.throttlerAttached ==> st.throttlerAttached)
    && r.leakedHandles >= st.leakedHandles
    && (st.extensionList.Some? ==> r.extensionList == st.extensionList)
  }
}

=== FILE: scriptinjection.dfy ===
/**
 The WebsocketScriptInjectionHelper: building the WebSocket host string and the
 script block that replaces `</body>`, and splicing that block into an HTML page
 held either as a string or as a UTF-8 byte buffer. The embedded client script
 text, the request's scheme, host and port, and the UTF-8 encoding of the block
 are inputs; stream writes are concatenation.
 */
module ScriptInjection {
  import opened Text
  import opened Configuration

  /** The marker whose presence means a page already carries the script. */
  const Marker: string := "<!-- Jbartels Live Reload -->"

  /** The tag the script block replaces. */
  const BodyMarker: string := "</body>"

  /** The placeholder in the client script that receives the host string. */
  const HostPlaceholder: string := "{0}"

  /** The comment the block itself carries: the marker with a lower-case `j`. */
  const BlockComment: string := "<!-- jbartels Live Reload -->"

  /** The line opening every block. */
  const BlockHeader: string := "\n" + BlockComment + "\n"

  /** The comment closing every block, followed by the tag it replaced. */
  const BlockFooter: string := "\n<!-- End Live Reload -->\n\n</body>"

  /** The part of the request the host string is built from. */
  datatype Request = Request(isHttps: bool, host: string, port: string)

  /**
   The WebSocket address the client connects to: the configured WebSocketHost
   when set, otherwise scheme, request host and port; WebSocketUrl is appended.
   */
  function HostString(cfg: Config, req: Request): (r: string)
    ensures cfg.webSocketHost != [] ==> r == cfg.webSocketHost + cfg.webSocketUrl
    ensures cfg.webSocketHost == [] ==>
              r == (if req.isHttps then "wss" else "ws") + "://" + req.host + ":" + req.port + cfg.webSocketUrl
    ensures r[|r| - |cfg.webSocketUrl|..] == cfg.webSocketUrl
  {
    if cfg.webSocketHost != [] then cfg.webSocketHost + cfg.webSocketUrl
    else
      var prefix := if req.isHttps then "wss" else "ws";
      prefix + "://" + req.host + ":" + req.port + cfg.webSocketUrl
  }

  /**
   GetWebSocketClientJavaScript: with `scriptOnly`, the client script with its
   placeholder filled in; otherwise the block that replaces `</body>`, holding
   the script inline when LiveReloadScriptUrl is empty and a script reference
   to that URL otherwise.
   */
  function ClientJavaScript(cfg: Config, req: Request, clientScript: string, scriptOnly: bool): (r: string)
    ensures scriptOnly ==> r == ReplaceAll(clientScript, HostPlaceholder, HostString(cfg, req))
    ensures !scriptOnly ==> |r| > |BlockHeader| + |BlockFooter|
    ensures !scriptOnly ==> r[..|BlockHeader|] == BlockHeader
    ensures !scriptOnly ==> r[|r| - |BodyMarker|..] == BodyMarker
    ensures !scriptOnly && cfg.liveReloadScriptUrl != [] ==>
              r == BlockHeader + "<script src=\"" + cfg.liveReloadScriptUrl + "\"></script>" + BlockFooter
    ensures !scriptOnly && cfg.liveReloadScriptUrl == [] ==>
              r == BlockHeader + "<script>\n" + ReplaceAll(clientScript, HostPlaceholder, HostString(cfg, req))
                   + "\n</script>" + BlockFooter
  {
    var filled := ReplaceAll(clientScript, HostPlaceholder, HostString(cfg, req));
    if scriptOnly then filled
    else
      var body := if cfg.liveReloadScriptUrl == [] then "<script>\n" + filled + "\n</script>"
                  else "<script src=\"" + cfg.liveReloadScriptUrl + "\"></script>";
      var block := BlockHeader + body + BlockFooter;
      assert block[|block| - |BodyMarker|..] == BlockFooter[|BlockFooter| - |BodyMarker|..];
      block
  }

  /** The block that replaces `</body>`. */
  function Block(cfg: Config, req: Request, clientScript: string): string {
    ClientJavaScript(cfg, req, clientScript, false)
  }

  /** A script without placeholders is served as it is. */
  lemma ScriptWithoutPlaceholderIsVerbatim(cfg: Config, req: Request, clientScript: string)
    requires !Contains(clientScript, HostPlaceholder)
    ensures ClientJavaScript(cfg, req, clientScript, true) == clientScript
  {
    ReplaceAllWithoutOccurrence(clientScript, HostPlaceholder, HostString(cfg, req));
  }

  /** Every block ends with the tag it replaces, so it contains that tag. */
  lemma BlockContainsBodyMarker(cfg: Config, req: Request, clientScript: string)
    ensures Contains(Block(cfg, req, clientScript), BodyMarker)
    ensures |Block(cfg, req, clientScript)| > |BodyMarker|
  {
    var b := Block(cfg, req, clientScript);
    OccursAtWitnessesContains(b, BodyMarker, |b| - |BodyMarker|);
  }

  // ---- the string page ----

  /**
   InjectLiveReloadScript: a page already carrying the marker is returned as
   is; otherwise every `</body>` is replaced by the block.
   */
  function InjectIntoString(html: string, cfg: Config, req: Request, clientScript: string): (r: string)
    ensures Contains(html, Marker) ==> r == html
    ensures !Contains(html, Marker) ==> r == ReplaceAll(html, BodyMarker, Block(cfg, req, clientScript))
    ensures !Contains(html, BodyMarker) ==> r == html
    ensures !Contains(html, Marker) && Contains(html, BodyMarker) ==>
              |r| > |html| && Contains(r, Block(cfg, req, clientScript))
  {
    if Contains(html, Marker) then html
    else
      var block := Block(cfg, req, clientScript);
      BlockContainsBodyMarker(cfg, req, clientScript);
      ReplaceAllLength(html, BodyMarker, block);
      if Contains(html, BodyMarker) then
        ReplaceAllIntroduces(html, BodyMarker, block);
        ReplaceAll(html, BodyMarker, block)
      else
        ReplaceAllWithoutOccurrence(html, BodyMarker, block);
        ReplaceAll(html, BodyMarker, block)
  }

  /** `</body>` cannot overlap itself: its `<` occurs only at the start. */
  lemma BodyMarkerHeadUnique()
    ensures HeadUnique(BodyMarker)
  {
  }

  /**
   A page without the marker, made of pieces free of `</body>` with a `</body>`
   between consecutive pieces, becomes the same pieces with the block between
   them: every `</body>` is replaced, and nothing else changes.
   */
  lemma InjectReplacesEveryBody(pieces: seq<string>, cfg: Config, req: Request, clientScript: string)
    requires |pieces| > 0
    requires forall i :: 0 <= i < |pieces| ==> !Contains(pieces[i], BodyMarker)
    requires !Contains(JoinWith(pieces, BodyMarker), Marker)
    ensures InjectIntoString(JoinWith(pieces, BodyMarker), cfg, req, clientScript) ==
            JoinWith(pieces, Block(cfg, req, clientScript))
  {
    BodyMarkerHeadUnique();
    ReplaceAllJoinWith(pieces, BodyMarker, Block(cfg, req, clientScript));
  }

  /**
   The block carries the lower-case `jbartels` comment, not the marker, and ends
   in `</body>`: a page injected without gaining the marker is injected again.
   */
  lemma ReinjectionInjectsAgain(html: string, cfg: Config, req: Request, clientScript: string)
    requires !Contains(html, Marker) && Contains(html, BodyMarker)
    requires !Contains(InjectIntoString(html, cfg, req, clientScript), Marker)
    ensures var once := InjectIntoString(html, cfg, req, clientScript);
      |InjectIntoString(once, cfg, req, clientScript)| > |once|
  {
    var once := InjectIntoString(html, cfg, req, clientScript);
    var block := Block(cfg, req, clientScript);
    assert Contains(once, block);
    BlockContainsBodyMarker(cfg, req, clientScript);
    ContainsTransitive(once, block, BodyMarker);
  }

  /** A block that holds the marker makes a second injection a no-op. */
  lemma MarkerInBlockStopsReinjection(html: string, cfg: Config, req: Request, clientScript: string)
    requires Contains(Block(cfg, req, clientScript), Marker)
    requires !Contains(html, Marker) && Contains(html, BodyMarker)
    ensures var once := InjectIntoString(html, cfg, req, clientScript);
      InjectIntoString(once, cfg, req, clientScript) == once
  {
    var once := InjectIntoString(html, cfg, req, clientScript);
    ContainsTransitive(once, Block(cfg, req, clientScript), Marker);
  }

  /** A script URL holding the marker puts the marker into the block. */
  lemma MarkerInScriptUrlReachesBlock(cfg: Config, req: Request, clientScript: string)
    requires cfg.liveReloadScriptUrl != [] && Contains(cfg.liveReloadScriptUrl, Marker)
    ensures Contains(Block(cfg, req, clientScript), Marker)
  {
    var before := BlockHeader + "<script src=\"";
    var after := "\"></script>" + BlockFooter;
    ContainsInContext(before, cfg.liveReloadScriptUrl, after, Marker);
    assert Block(cfg, req, clientScript) == before + cfg.liveReloadScriptUrl + after;
  }

  /** The default block (a script reference) holds no upper-case `J`, so it never holds the marker. */
  lemma DefaultBlockLacksMarker(req: Request, clientScript: string)
    ensures !Contains(Block(Default, req, clientScript), Marker)
  {
    DefaultBlockHasNoUpperJ(req, clientScript);
    assert Marker[5] == 'J';
    AbsentElementExcludesPattern(Block(Default, req, clientScript), Marker, 5);
  }

  lemma DefaultBlockHasNoUpperJ(req: Request, clientScript: string)
    ensures 'J' !in Block(Default, req, clientScript)
  {
    var mid := "<script src=\"" + DefaultScriptUrl + "\"></script>";
    assert 'J' !in mid;
    assert 'J' !in BlockHeader;
    assert 'J' !in BlockFooter;
    assert Default.liveReloadScriptUrl == DefaultScriptUrl;
    assert Block(Default, req, clientScript) == BlockHeader + mid + BlockFooter;
  }

  /** A pattern holding an element the sequence lacks does not occur in it. */
  lemma AbsentElementExcludesPattern<T>(s: seq<T>, p: seq<T>, i: int)
    requires 0 <= i < |p| && p[i] !in s
    ensures !Contains(s, p)
  {
    forall k | 0 <= k <= |s| - |p|
      ensures !OccursAt(s, p, k)
    {
      assert s[k..k + |p|][i] == s[k + i];
    }
  }

  /**
   Counterexample to idempotence as written: under the default configuration the
   page "</body>" becomes the block, and injecting that result again grows it,
   because the block's comment differs from the marker in the case of one letter.
   */
  lemma DefaultPageIsInjectedTwice(req: Request, clientScript: string)
    ensures InjectIntoString("</body>", Default, req, clientScript) == Block(Default, req, clientScript)
    ensures var once := InjectIntoString("</body>", Default, req, clientScript);
      |InjectIntoString(once, Default, req, clientScript)| > |once|
  {
    var html := "</body>";
    var block := Block(Default, req, clientScript);
    assert OccursAt(html, BodyMarker, 0);
    OccursAtWitnessesContains(html, BodyMarker, 0);
    ReplaceAllSingleOccurrence(html, BodyMarker, block, 0);
    assert html[..0] + block + html[7..] == block;
    DefaultBlockLacksMarker(req, clientScript);
    ReinjectionInjectsAgain(html, Default, req, clientScript);
  }

  /**
   InjectLiveReloadScript as evidently intended: the page counts as injected when
   it holds the comment the block actually carries.
   */
  function InjectIntoStringIntended(html: string, cfg: Config, req: Request, clientScript: string): (r: string)
    ensures Contains(html, BlockComment) ==> r == html
    ensures !Contains(html, BlockComment) ==> r == ReplaceAll(html, BodyMarker, Block(cfg, req, clientScript))
    ensures !Contains(html, BodyMarker) ==> r == html
    ensures !Contains(html, BlockComment) && Contains(html, BodyMarker) ==>
              Contains(r, Block(cfg, req, clientScript)) && Contains(r, BlockComment)
  {
    if Contains(html, BlockComment) then html
    else
      var block := Block(cfg, req, clientScript);
      if Contains(html, BodyMarker) then
        ReplaceAllIntroduces(html, BodyMarker, block);
        BlockContainsComment(cfg, req, clientScript);
        ContainsTransitive(ReplaceAll(html, BodyMarker, block), block, BlockComment);
        ReplaceAll(html, BodyMarker, block)
      else
        ReplaceAllWithoutOccurrence(html, BodyMarker, block);
        ReplaceAll(html, BodyMarker, block)
  }

  /** The intended injection, too, replaces every `</body>` of a page not yet injected, and nothing else. */
  lemma IntendedInjectReplacesEveryBody(pieces: seq<string>, cfg: Config, req: Request, clientScript: string)
    requires |pieces| > 0
    requires forall i :: 0 <= i < |pieces| ==> !Contains(pieces[i], BodyMarker)
    requires !Contains(JoinWith(pieces, BodyMarker), BlockComment)
    ensures InjectIntoStringIntended(JoinWith(pieces, BodyMarker), cfg, req, clientScript) ==
            JoinWith(pieces, Block(cfg, req, clientScript))
  {
    BodyMarkerHeadUnique();
    ReplaceAllJoinWith(pieces, BodyMarker, Block(cfg, req, clientScript));
  }

  /** Every block opens with its comment. */
  lemma BlockContainsComment(cfg: Config, req: Request, clientScript: string)
    ensures Contains(Block(cfg, req, clientScript), BlockComment)
  {
    var b := Block(cfg, req, clientScript);
    assert b == ClientJavaScript(cfg, req, clientScript, false);
    assert b[..|BlockHeader|] == BlockHeader;
    assert BlockHeader[1..1 + |BlockComment|] == BlockComment by {
      var c := BlockComment;
      assert forall i :: 0 <= i < |c| ==> ("\n" + c + "\n")[1 + i] == c[i];
    }
    assert b[1..1 + |BlockComment|] == b[..|BlockHeader|][1..1 + |BlockComment|];
    OccursAtWitnessesContains(b, BlockComment, 1);
  }

  /** With the intended marker, injecting twice is injecting once, for every page and configuration. */
  lemma IntendedInjectionIsIdempotent(html: string, cfg: Config, req: Request, clientScript: string)
    ensures var once := InjectIntoStringIntended(html, cfg, req, clientScript);
      InjectIntoStringIntended(once, cfg, req, clientScript) == once
  {
  }

  /** Occurrence is transitive: a text containing `b` contains what `b` contains. */
  lemma ContainsTransitive<T>(a: seq<T>, b: seq<T>, c: seq<T>)
    requires Contains(a, b) && Contains(b, c)
    ensures Contains(a, c)
  {
    var i :| 0 <= i <= |a| - |b| && OccursAt(a, b, i);
    var j :| 0 <= j <= |b| - |c| && OccursAt(b, c, j);
    forall t | 0 <= t < |c|
      ensures a[i + j + t] == c[t]
    {
      assert a[i..i + |b|][j + t] == b[j + t];
      assert b[j..j + |c|][t] == c[t];
    }
    assert a[i + j..i + j + |c|] == c;
    assert OccursAt(a, c, i + j);
  }

  // ---- the byte buffer ----

  newtype byte = b: int | 0 <= b < 256

  predicate IsAscii(s: string) {
    forall i :: 0 <= i < |s| ==> s[i] as int < 128
  }

  /** UTF-8 encoding of an ASCII string: one byte per character. */
  function AsciiBytes(s: string): (r: seq<byte>)
    requires IsAscii(s)
    ensures |r| == |s|
    ensures forall i :: 0 <= i < |s| ==> r[i] as int == s[i] as int
  {
    seq(|s|, i requires 0 <= i < |s| => s[i] as int as byte)
  }

  function MarkerBytes(): (r: seq<byte>)
    ensures |r| == |Marker|
  {
    AsciiBytes(Marker)
  }

  function BodyBytes(): (r: seq<byte>)
    ensures |r| == |BodyMarker| == 7
  {
    AsciiBytes(BodyMarker)
  }

  /** Outcome of the byte splice: the bytes written, or AsMemory's range check failing. */
  datatype Splice = Written(bytes: seq<byte>) | OutOfRange

  /**
   The private InjectLiveReloadScriptAsync as written: unchanged when the
   marker occurs or `</body>` does not; otherwise the bytes before the LAST
   `</body>` minus one, the script, and the bytes after that `</body>`. With
   `</body>` at index 0 the first slice has length -1 and is refused.
   */
  function InjectIntoBytes(buffer: seq<byte>, script: seq<byte>): (r: Splice)
    ensures Contains(buffer, MarkerBytes()) ==> r == Written(buffer)
    ensures !Contains(buffer, BodyBytes()) ==> r == Written(buffer)
    ensures forall k :: !Contains(buffer, MarkerBytes()) && IsLastOccurrence(buffer, BodyBytes(), k) ==>
              if k == 0 then r == OutOfRange
              else r == Written(buffer[..k - 1] + script + buffer[k + |BodyBytes()|..])
  {
    if LastIndexOf(buffer, MarkerBytes()) > -1 then Written(buffer)
    else
      var index := LastIndexOf(buffer, BodyBytes());
      if index == -1 then Written(buffer)
      else
        var endIndex := index + |BodyBytes()|;
        if index - 1 < 0 then OutOfRange
        else Written(buffer[..index - 1] + script + buffer[endIndex..])
  }

  /**
   Only the last `</body>` is spliced: the bytes after it are kept verbatim and
   hold no further `</body>`, and the output is |script| - 8 bytes longer.
   */
  lemma SpliceKeepsTail(buffer: seq<byte>, script: seq<byte>, k: int)
    requires !Contains(buffer, MarkerBytes()) && IsLastOccurrence(buffer, BodyBytes(), k) && k > 0
    ensures InjectIntoBytes(buffer, script).Written?
    ensures var out := InjectIntoBytes(buffer, script).bytes;
      && |out| == |buffer| - 8 + |script|
      && out[|out| - (|buffer| - k - 7)..] == buffer[k + 7..]
      && !Contains(buffer[k + 7..], BodyBytes())
  {
    var tail := buffer[k + 7..];
    forall j | 0 <= j <= |tail| - 7
      ensures !OccursAt(tail, BodyBytes(), j)
    {
      assert !OccursAt(buffer, BodyBytes(), k + 7 + j);
      assert tail[j..j + 7] == buffer[k + 7 + j..k + 7 + j + 7];
    }
  }

  /**
   The splice evidently intended: the bytes before the last `</body>`, the
   script, and the bytes after that `</body>`; it never fails.
   */
  function InjectIntoBytesIntended(buffer: seq<byte>, script: seq<byte>): (r: seq<byte>)
    ensures Contains(buffer, MarkerBytes()) || !Contains(buffer, BodyBytes()) ==> r == buffer
    ensures forall k :: !Contains(buffer, MarkerBytes()) && IsLastOccurrence(buffer, BodyBytes(), k) ==>
              && |r| == |buffer| - |BodyBytes()| + |script|
              && r[..k] == buffer[..k]
              && r[k..k + |script|] == script
              && r[k + |script|..] == buffer[k + |BodyBytes()|..]
  {
    if LastIndexOf(buffer, MarkerBytes()) > -1 then buffer
    else
      var index := LastIndexOf(buffer, BodyBytes());
      if index == -1 then buffer
      else buffer[..index] + script + buffer[index + |BodyBytes()|..]
  }

  /**
   On a page with a single `</body>`, the intended byte splice is exactly what
   the string version computes.
   */
  lemma IntendedSpliceAgreesWithReplace(buffer: seq<byte>, script: seq<byte>, k: nat)
    requires !Contains(buffer, MarkerBytes())
    requires OccursAt(buffer, BodyBytes(), k)
    requires forall j :: OccursAt(buffer, BodyBytes(), j) ==> j == k
    ensures InjectIntoBytesIntended(buffer, script) == ReplaceAll(buffer, BodyBytes(), script)
  {
    ReplaceAllSingleOccurrence(buffer, BodyBytes(), script, k);
    assert IsLastOccurrence(buffer, BodyBytes(), k);
    var r := InjectIntoBytesIntended(buffer, script);
    assert r == buffer[..k] + script + buffer[k + |BodyBytes()|..];
  }

  /** `A</body>`: the as-written splice drops the `A` the intended one keeps. */
  lemma SpliceDropsByteBeforeBody(script: seq<byte>)
    ensures var buffer := [65 as byte] + BodyBytes();
      && InjectIntoBytes(buffer, script) == Written(script)
      && InjectIntoBytesIntended(buffer, script) == [65 as byte] + script
  {
    var buffer := [65 as byte] + BodyBytes();
    assert OccursAt(buffer, BodyBytes(), 1);
    assert IsLastOccurrence(buffer, BodyBytes(), 1);
    assert !Contains(buffer, MarkerBytes());
  }

  /** A page that starts with `</body>` makes the as-written splice fail. */
  lemma SpliceFailsAtIndexZero(script: seq<byte>)
    ensures InjectIntoBytes(BodyBytes(), script) == OutOfRange
  {
    assert OccursAt(BodyBytes(), BodyBytes(), 0);
    assert IsLastOccurrence(BodyBytes(), BodyBytes(), 0);
    assert !Contains(BodyBytes(), MarkerBytes());
  }
}

=== FILE: text.dfy ===
/**
 Ordinal (code-unit by code-unit) searching and replacing, generic over the
 element type so that the same definitions serve strings (`seq<char>`) and UTF-8
 buffers (`seq<byte>`); splitting and joining of strings; and the ASCII case
 folding used where the source compares with OrdinalIgnoreCase.
 */
module Text {

  /** `p` occurs in `s` starting at index `k`. */
  predicate OccursAt<T(==)>(s: seq<T>, p: seq<T>, k: int) {
    0 <= k && k + |p| <= |s| && s[k..k + |p|] == p
  }

  /** Ordinal `Contains`: `p` occurs somewhere in `s`. */
  predicate Contains<T(==)>(s: seq<T>, p: seq<T>) {
    exists k :: 0 <= k <= |s| - |p| && OccursAt(s, p, k)
  }

  /** `k` is the last index at which `p` occurs in `s`. */
  predicate IsLastOccurrence<T(==)>(s: seq<T>, p: seq<T>, k: int) {
    OccursAt(s, p, k) && forall j :: 0 <= j <= |s| && OccursAt(s, p, j) ==> j <= k
  }

  lemma OccursAtWitnessesContains<T>(s: seq<T>, p: seq<T>, k: int)
    requires OccursAt(s, p, k)
    ensures Contains(s, p)
  {
  }

  /** An occurrence in `b` is an occurrence in `a + b + c`. */
  lemma ContainsInContext<T>(a: seq<T>, b: seq<T>, c: seq<T>, p: seq<T>)
    requires Contains(b, p)
    ensures Contains(a + b + c, p)
  {
    var k :| 0 <= k <= |b| - |p| && OccursAt(b, p, k);
    assert (a + b + c)[|a| + k..|a| + k + |p|] == b[k..k + |p|];
    assert OccursAt(a + b + c, p, |a| + k);
  }

  /**
   Span.LastIndexOf: the index of the last occurrence of `p` in `s`, or -1 when
   there is none.
   */
  function LastIndexOf<T(==)>(s: seq<T>, p: seq<T>): (r: int)
    ensures r == -1 <==> !Contains(s, p)
    ensures r != -1 ==> IsLastOccurrence(s, p, r)
    decreases |s|
  {
    if |s| < |p| then -1
    else if s[|s| - |p|..] == p then
      assert OccursAt(s, p, |s| - |p|);
      |s| - |p|
    else
      var r := LastIndexOf(s[..|s| - 1], p);
      DropLastKeepsOccurrences(s, p);
      r
  }

  /** Dropping the last element keeps every occurrence that does not end there. */
  lemma DropLastKeepsOccurrences<T>(s: seq<T>, p: seq<T>)
    requires |s| >= |p| && s[|s| - |p|..] != p
    ensures Contains(s, p) <==> Contains(s[..|s| - 1], p)
    ensures forall j :: OccursAt(s, p, j) <==> OccursAt(s[..|s| - 1], p, j)
  {
    forall j
      ensures OccursAt(s, p, j) <==> OccursAt(s[..|s| - 1], p, j)
    {
      if OccursAt(s, p, j) {
        assert j != |s| - |p|;
        assert s[j..j + |p|] == s[..|s| - 1][j..j + |p|];
      }
      if OccursAt(s[..|s| - 1], p, j) {
        assert s[j..j + |p|] == s[..|s| - 1][j..j + |p|];
      }
    }
    if Contains(s, p) {
      var j :| 0 <= j <= |s| - |p| && OccursAt(s, p, j);
      assert OccursAt(s[..|s| - 1], p, j);
    }
    if Contains(s[..|s| - 1], p) {
      var j :| 0 <= j <= |s| - 1 - |p| && OccursAt(s[..|s| - 1], p, j);
      assert OccursAt(s, p, j);
    }
  }

  /**
   String.Replace with an ordinal match: scan left to right and replace every
   non-overlapping occurrence of `pat` by `rep`.
   */
  function ReplaceAll<T(==)>(s: seq<T>, pat: seq<T>, rep: seq<T>): seq<T>
    requires |pat| > 0
    decreases |s|
  {
    if |s| < |pat| then s
    else if s[..|pat|] == pat then rep + ReplaceAll(s[|pat|..], pat, rep)
    else [s[0]] + ReplaceAll(s[1..], pat, rep)
  }

  /** Dropping the first element of a sequence that does not start with `p` keeps every occurrence. */
  lemma ContainsTail<T>(s: seq<T>, p: seq<T>)
    requires |p| > 0 && |s| >= |p| && s[..|p|] != p && Contains(s, p)
    ensures Contains(s[1..], p)
  {
    var k :| 0 <= k <= |s| - |p| && OccursAt(s, p, k);
    assert k != 0;
    assert s[1..][k - 1..k - 1 + |p|] == s[k..k + |p|];
    assert OccursAt(s[1..], p, k - 1);
  }

  /** Without an occurrence of `pat`, ReplaceAll returns its input unchanged. */
  lemma {:induction false} ReplaceAllWithoutOccurrence<T>(s: seq<T>, pat: seq<T>, rep: seq<T>)
    requires |pat| > 0
    requires !Contains(s, pat)
    ensures ReplaceAll(s, pat, rep) == s
    decreases |s|
  {
    if |s| >= |pat| {
      if s[..|pat|] == pat {
        assert OccursAt(s, pat, 0);
        assert false;
      }
      if Contains(s[1..], pat) {
        var k :| 0 <= k <= |s[1..]| - |pat| && OccursAt(s[1..], pat, k);
        assert s[1..][k..k + |pat|] == s[k + 1..k + 1 + |pat|];
        assert OccursAt(s, pat, k + 1);
      }
      ReplaceAllWithoutOccurrence(s[1..], pat, rep);
      assert [s[0]] + s[1..] == s;
    }
  }

  /**
   A replacement text at least as long as the pattern never shortens the input,
   and a strictly longer one lengthens every input that contains the pattern.
   */
  lemma {:induction false} ReplaceAllLength<T>(s: seq<T>, pat: seq<T>, rep: seq<T>)
    requires |pat| > 0 && |rep| >= |pat|
    ensures |ReplaceAll(s, pat, rep)| >= |s|
    ensures |rep| > |pat| && Contains(s, pat) ==> |ReplaceAll(s, pat, rep)| > |s|
    decreases |s|
  {
    if |s| >= |pat| {
      if s[..|pat|] == pat {
        ReplaceAllLength(s[|pat|..], pat, rep);
      } else {
        ReplaceAllLength(s[1..], pat, rep);
        if |rep| > |pat| && Contains(s, pat) {
          ContainsTail(s, pat);
        }
      }
    }
  }

  /** Whenever the pattern occurs, the replacement text occurs in the result. */
  lemma {:induction false} ReplaceAllIntroduces<T>(s: seq<T>, pat: seq<T>, rep: seq<T>)
    requires |pat| > 0 && Contains(s, pat)
    ensures Contains(ReplaceAll(s, pat, rep), rep)
    decreases |s|
  {
    if |s| < |pat| {
      assert false;
    } else if s[..|pat|] == pat {
      var r := ReplaceAll(s, pat, rep);
      assert r[0..|rep|] == rep;
      assert OccursAt(r, rep, 0);
    } else {
      ContainsTail(s, pat);
      ReplaceAllIntroduces(s[1..], pat, rep);
      ContainsInContext([s[0]], ReplaceAll(s[1..], pat, rep), [], rep);
      assert [s[0]] + ReplaceAll(s[1..], pat, rep) + [] == ReplaceAll(s, pat, rep);
    }
  }

  /**
   When nothing matches before index `i`, ReplaceAll leaves the first `i`
   elements alone and continues from `i`.
   */
  lemma {:induction false} ReplaceAllSkipsPrefix<T>(s: seq<T>, pat: seq<T>, rep: seq<T>, i: nat)
    requires |pat| > 0 && i <= |s|
    requires forall k :: 0 <= k < i ==> !OccursAt(s, pat, k)
    ensures ReplaceAll(s, pat, rep) == s[..i] + ReplaceAll(s[i..], pat, rep)
    decreases i
  {
    if i > 0 {
      if |s| < |pat| {
        ReplaceAllWithoutOccurrenceShort(s[i..], pat, rep);
      } else {
        assert !OccursAt(s, pat, 0);
        assert s[..|pat|] != pat;
        forall k | 0 <= k < i - 1
          ensures !OccursAt(s[1..], pat, k)
        {
          if OccursAt(s[1..], pat, k) {
            assert s[1..][k..k + |pat|] == s[k + 1..k + 1 + |pat|];
            assert OccursAt(s, pat, k + 1);
          }
        }
        ReplaceAllSkipsPrefix(s[1..], pat, rep, i - 1);
        assert s[1..][i - 1..] == s[i..];
        assert [s[0]] + s[1..][..i - 1] == s[..i];
      }
    }
  }

  lemma ReplaceAllWithoutOccurrenceShort<T>(s: seq<T>, pat: seq<T>, rep: seq<T>)
    requires 0 < |pat| && |s| < |pat|
    ensures ReplaceAll(s, pat, rep) == s
  {
  }

  /**
   With exactly one occurrence of `pat`, at `k`, ReplaceAll is the single splice
   `s[..k] + rep + s[k + |pat|..]`.
   */
  lemma ReplaceAllSingleOccurrence<T>(s: seq<T>, pat: seq<T>, rep: seq<T>, k: nat)
    requires |pat| > 0 && OccursAt(s, pat, k)
    requires forall j :: OccursAt(s, pat, j) ==> j == k
    ensures ReplaceAll(s, pat, rep) == s[..k] + rep + s[k + |pat|..]
  {
    ReplaceAllSkipsPrefix(s, pat, rep, k);
    var tail := s[k..];
    assert tail[..|pat|] == pat;
    var after := tail[|pat|..];
    assert after == s[k + |pat|..];
    if Contains(after, pat) {
      var j :| 0 <= j <= |after| - |pat| && OccursAt(after, pat, j);
      assert after[j..j + |pat|] == s[k + |pat| + j..k + |pat| + j + |pat|];
      assert OccursAt(s, pat, k + |pat| + j);
      assert false;
    }
    ReplaceAllWithoutOccurrence(after, pat, rep);
  }

  /** The first element of `p` occurs nowhere else in it, so `p` cannot overlap itself. */
  predicate HeadUnique<T(==)>(p: seq<T>) {
    |p| > 0 && forall i :: 0 < i < |p| ==> p[i] != p[0]
  }

  /** The pieces, in order, with `sep` between consecutive ones. */
  function JoinWith<T>(pieces: seq<seq<T>>, sep: seq<T>): seq<T>
    requires |pieces| > 0
    decreases |pieces|
  {
    if |pieces| == 1 then pieces[0] else pieces[0] + sep + JoinWith(pieces[1..], sep)
  }

  /**
   A self-non-overlapping pattern right after a piece free of it is the first
   match: everything before it is kept and it becomes `rep`.
   */
  lemma ReplaceAllAfterPiece<T>(a: seq<T>, pat: seq<T>, b: seq<T>, rep: seq<T>)
    requires HeadUnique(pat) && !Contains(a, pat)
    ensures ReplaceAll(a + pat + b, pat, rep) == a + rep + ReplaceAll(b, pat, rep)
  {
    var s := a + pat + b;
    forall k | 0 <= k < |a|
      ensures !OccursAt(s, pat, k)
    {
      if k + |pat| <= |a| {
        assert s[k..k + |pat|] == a[k..k + |pat|];
        assert !OccursAt(a, pat, k);
      } else {
        assert s[k..k + |pat|][|a| - k] == s[|a|] == pat[0];
        assert pat[|a| - k] != pat[0];
      }
    }
    ReplaceAllSkipsPrefix(s, pat, rep, |a|);
    assert s[..|a|] == a;
    var t := s[|a|..];
    assert t == pat + b;
    assert t[..|pat|] == pat;
    assert t[|pat|..] == b;
  }

  /**
   ReplaceAll on pieces joined by a self-non-overlapping pattern, none of which
   contains it, replaces exactly the joints: every occurrence becomes `rep` and
   every piece is kept.
   */
  lemma {:induction false} ReplaceAllJoinWith<T>(pieces: seq<seq<T>>, pat: seq<T>, rep: seq<T>)
    requires HeadUnique(pat) && |pieces| > 0
    requires forall i :: 0 <= i < |pieces| ==> !Contains(pieces[i], pat)
    ensures ReplaceAll(JoinWith(pieces, pat), pat, rep) == JoinWith(pieces, rep)
    decreases |pieces|
  {
    if |pieces| == 1 {
      ReplaceAllWithoutOccurrence(pieces[0], pat, rep);
    } else {
      var rest := pieces[1..];
      assert forall i :: 0 <= i < |rest| ==> rest[i] == pieces[i + 1];
      ReplaceAllJoinWith(rest, pat, rep);
      ReplaceAllAfterPiece(pieces[0], pat, JoinWith(rest, pat), rep);
    }
  }

  // ---- splitting on a separator ----

  /** String.Split(sep) with no options: every piece, including empty ones. */
  function SplitOn(s: string, sep: char): (parts: seq<string>)
    ensures |parts| >= 1
    ensures forall i :: 0 <= i < |parts| ==> sep !in parts[i]
    decreases |s|
  {
    if s == [] then [[]]
    else
      var rest := SplitOn(s[1..], sep);
      if s[0] == sep then [[]] + rest
      else [[s[0]] + rest[0]] + rest[1..]
  }

  /** String.Join(sep, parts). */
  function Join(parts: seq<string>, sep: char): string
    decreases |parts|
  {
    if |parts| == 0 then []
    else if |parts| == 1 then parts[0]
    else parts[0] + [sep] + Join(parts[1..], sep)
  }

  /** Joining a leading piece in front of a non-empty list puts one separator between them. */
  lemma JoinCons(p: string, rest: seq<string>, sep: char)
    requires |rest| > 0
    ensures Join([p] + rest, sep) == p + [sep] + Join(rest, sep)
  {
    assert ([p] + rest)[1..] == rest;
  }

  /** Joining two non-empty lists is joining each and putting one separator between. */
  lemma {:induction false} JoinAppend(a: seq<string>, b: seq<string>, sep: char)
    requires |a| > 0 && |b| > 0
    ensures Join(a + b, sep) == Join(a, sep) + [sep] + Join(b, sep)
    decreases |a|
  {
    if |a| == 1 {
      JoinCons(a[0], b, sep);
      assert a + b == [a[0]] + b;
    } else {
      JoinAppend(a[1..], b, sep);
      assert (a + b)[1..] == a[1..] + b;
      assert (a + b)[0] == a[0];
    }
  }

  /** Drops the empty pieces, keeping the order of the others. */
  function RemoveEmpty(parts: seq<string>): (r: seq<string>)
    ensures forall i :: 0 <= i < |r| ==> r[i] != []
    ensures forall x :: x in r <==> x in parts && x != []
    decreases |parts|
  {
    if |parts| == 0 then []
    else if parts[0] == [] then RemoveEmpty(parts[1..])
    else [parts[0]] + RemoveEmpty(parts[1..])
  }

  /**
   String.Split(sep, StringSplitOptions.RemoveEmptyEntries): the non-empty pieces
   between separators, untrimmed.
   */
  function SplitRemoveEmpty(s: string, sep: char): (r: seq<string>)
    ensures forall i :: 0 <= i < |r| ==> r[i] != [] && sep !in r[i]
  {
    var parts := SplitOn(s, sep);
    var r := RemoveEmpty(parts);
    assert forall i :: 0 <= i < |r| ==> r[i] in r;
    r
  }

  /** Joining the pieces with the separator gives back the input. */
  lemma {:induction false} JoinSplitOn(s: string, sep: char)
    ensures Join(SplitOn(s, sep), sep) == s
    decreases |s|
  {
    if s != [] {
      JoinSplitOn(s[1..], sep);
      var rest := SplitOn(s[1..], sep);
      if s[0] == sep {
        assert SplitOn(s, sep) == [[]] + rest;
        assert ([[]] + rest)[1..] == rest;
      } else {
        var parts := SplitOn(s, sep);
        assert parts == [[s[0]] + rest[0]] + rest[1..];
        if |rest| == 1 {
          assert Join(parts, sep) == [s[0]] + rest[0];
        } else {
          assert parts[1..] == rest[1..];
          assert Join(rest, sep) == rest[0] + [sep] + Join(rest[1..], sep);
        }
      }
    }
  }

  /** A piece without the separator, followed by the separator, becomes one whole piece. */
  lemma {:induction false} SplitOnPiece(a: string, b: string, sep: char)
    requires sep !in a
    ensures SplitOn(a + [sep] + b, sep) == [a] + SplitOn(b, sep)
    decreases |a|
  {
    if a == [] {
      assert a + [sep] + b == [sep] + b;
      assert ([sep] + b)[1..] == b;
    } else {
      SplitOnPiece(a[1..], b, sep);
      assert (a + [sep] + b)[1..] == a[1..] + [sep] + b;
      assert [a[0]] + a[1..] == a;
    }
  }

  /** A piece without the separator splits to itself. */
  lemma {:induction false} SplitOnSingle(a: string, sep: char)
    requires sep !in a
    ensures SplitOn(a, sep) == [a]
    decreases |a|
  {
    if a != [] {
      SplitOnSingle(a[1..], sep);
      assert [a[0]] + a[1..] == a;
    }
  }

  /** Splitting a join of separator-free pieces gives back the pieces. */
  lemma {:induction false} SplitOnJoin(parts: seq<string>, sep: char)
    requires |parts| >= 1
    requires forall i :: 0 <= i < |parts| ==> sep !in parts[i]
    ensures SplitOn(Join(parts, sep), sep) == parts
    decreases |parts|
  {
    if |parts| == 1 {
      SplitOnSingle(parts[0], sep);
    } else {
      SplitOnJoin(parts[1..], sep);
      SplitOnPiece(parts[0], Join(parts[1..], sep), sep);
      assert [parts[0]] + parts[1..] == parts;
    }
  }

  lemma {:induction false} RemoveEmptyOfNonEmpty(parts: seq<string>)
    requires forall i :: 0 <= i < |parts| ==> parts[i] != []
    ensures RemoveEmpty(parts) == parts
    decreases |parts|
  {
    if |parts| > 0 {
      RemoveEmptyOfNonEmpty(parts[1..]);
      assert [parts[0]] + parts[1..] == parts;
    }
  }

  /**
   Splitting a join of separator-free entries, dropping empty entries, gives
   back the non-empty entries in order: empty entries, including those before a
   leading or after a trailing separator, disappear.
   */
  lemma SplitRemoveEmptyOfJoinDropsEmpty(parts: seq<string>, sep: char)
    requires forall i :: 0 <= i < |parts| ==> sep !in parts[i]
    ensures SplitRemoveEmpty(Join(parts, sep), sep) == RemoveEmpty(parts)
  {
    if |parts| == 0 {
      assert SplitOn([], sep) == [[]];
      assert RemoveEmpty([[]]) == RemoveEmpty([[]][1..]) == [];
    } else {
      SplitOnJoin(parts, sep);
    }
  }

  /**
   Round trip: splitting (dropping empty entries) a comma-style join of
   non-empty, separator-free entries gives back exactly those entries.
   */
  lemma SplitRemoveEmptyOfJoin(parts: seq<string>, sep: char)
    requires forall i :: 0 <= i < |parts| ==> parts[i] != [] && sep !in parts[i]
    ensures SplitRemoveEmpty(Join(parts, sep), sep) == parts
  {
    SplitRemoveEmptyOfJoinDropsEmpty(parts, sep);
    RemoveEmptyOfNonEmpty(parts);
  }

  // ---- OrdinalIgnoreCase ----

  /** Upper-cases ASCII letters and leaves every other character alone. */
  function FoldCase(c: char): (u: char)
    ensures 'a' <= c <= 'z' ==> 'A' <= u <= 'Z'
    ensures !('a' <= c <= 'z') ==> u == c
  {
    if 'a' <= c <= 'z' then (c as int - 32) as char else c
  }

  /** Ordinal comparison ignoring case: equal lengths and equal folded characters. */
  predicate EqualsIgnoreCase(a: string, b: string) {
    |a| == |b| && forall i :: 0 <= i < |a| ==> FoldCase(a[i]) == FoldCase(b[i])
  }

  /** List.Contains(x, StringComparer.OrdinalIgnoreCase). */
  function ContainsIgnoreCase(list: seq<string>, x: string): (r: bool)
    ensures r <==> exists i :: 0 <= i < |list| && EqualsIgnoreCase(list[i], x)
    decreases |list|
  {
    if |list| == 0 then false
    else if EqualsIgnoreCase(list[0], x) then true
    else
      var r := ContainsIgnoreCase(list[1..], x);
      assert forall i :: 1 <= i < |list| ==> list[i] == list[1..][i - 1];
      r
  }
}

=== FILE: throttling.dfy ===
/**
 The ThrottlingTimer as a discrete-time state machine over integer milliseconds.

 The real class wraps one System.Timers.Timer. Every Debounce or Throttle call
 stops it, subscribes one more Elapsed handler (a closure over that call's action
 and parameter), sets the interval and starts it again. Handlers are never
 unsubscribed. When the timer elapses, the handlers run in subscription order;
 each returns early unless the timer is still enabled, otherwise stops the timer
 and invokes its action. A handler is modelled by the value `A` it captured.
 */
module Throttling {

  /** DateTime.UtcNow.AddYears(-1): the initial TimerStarted lies one (365-day) year back. */
  const YearMs: int := 365 * 24 * 60 * 60 * 1000

  /** System.Timers.Timer's default Interval. */
  const DefaultIntervalMs: int := 100

  const Int32Max: int := 0x7FFF_FFFF

  datatype Timer<A> = Timer(
    handlers: seq<A>,   // subscribed Elapsed handlers, oldest first
    enabled: bool,      // Timer.Enabled
    interval: int,      // Timer.Interval
    armedAt: int,       // time of the last Start, from which the countdown runs
    timerStarted: int)  // the class's TimerStarted, only read and written by Throttle
  {
    /** The time at which the running countdown elapses. */
    function DueAt(): int {
      armedAt + interval
    }
  }

  /**
   Outcome of a Debounce or Throttle call. Setting a non-positive Interval makes
   System.Timers.Timer throw; the handler has been subscribed and the timer
   stopped by then, so `Rejected` carries that state.
   */
  datatype Call<A> = Armed(timer: Timer<A>) | Rejected(timer: Timer<A>)

  /** Outcome of the timer elapsing: the new state and the actions invoked, in order. */
  datatype Elapsed<A> = Elapsed(timer: Timer<A>, invoked: seq<A>)

  /** A running timer has a handler to run and a positive interval. */
  predicate Valid<A>(t: Timer<A>) {
    t.enabled ==> |t.handlers| > 0 && t.interval > 0
  }

  /** A new ThrottlingTimer created at `now`. */
  function Create<A>(now: int): (t: Timer<A>)
    ensures Valid(t) && !t.enabled && t.handlers == []
    ensures now - t.timerStarted == YearMs
  {
    Timer([], false, DefaultIntervalMs, now, now - YearMs)
  }

  /** Debounce(interval, action, param) called at time `now`; `h` is the subscribed closure. */
  function Debounce<A>(t: Timer<A>, now: int, interval: int, h: A): (r: Call<A>)
    ensures r.timer.handlers == t.handlers + [h]
    ensures r.timer.timerStarted == t.timerStarted
    ensures r.Armed? <==> interval > 0
    ensures r.Armed? ==> r.timer.enabled && r.timer.interval == interval && r.timer.DueAt() == now + interval
    ensures r.Rejected? ==> !r.timer.enabled
    ensures Valid(r.timer)
  {
    var stopped := t.(enabled := false, handlers := t.handlers + [h]);
    if interval <= 0 then Rejected(stopped)
    else Armed(stopped.(enabled := true, interval := interval, armedAt := now))
  }

  /**
   Throttle(interval, action, param) called at time `now`: when less than
   `interval` has passed since the previous Throttle, only the remainder is
   waited; TimerStarted becomes `now` once the timer has been started.
   */
  function Throttle<A>(t: Timer<A>, now: int, interval: int, h: A): (r: Call<A>)
    ensures r.timer.handlers == t.handlers + [h]
    ensures Valid(r.timer)
    ensures t.timerStarted <= now && interval > 0 ==> r.Armed? && 0 < r.timer.interval <= interval
    ensures r.Armed? ==> r.timer.enabled && r.timer.timerStarted == now && r.timer.armedAt == now
    ensures r.Armed? && now - t.timerStarted < interval ==> r.timer.DueAt() == t.timerStarted + interval
    ensures r.Armed? && now - t.timerStarted >= interval ==> r.timer.DueAt() == now + interval
    ensures r.Rejected? ==> !r.timer.enabled && r.timer.timerStarted == t.timerStarted
  {
    var elapsed := now - t.timerStarted;
    var effective := if elapsed < interval then interval - elapsed else interval;
    var stopped := t.(enabled := false, handlers := t.handlers + [h]);
    if effective <= 0 then Rejected(stopped)
    else Armed(stopped.(enabled := true, interval := effective, armedAt := now, timerStarted := now))
  }

  /**
   The Elapsed handlers `hs` run in order while the timer's enabled flag is
   `enabled`; gives the actions invoked and the final flag.
   */
  function RunHandlers<A>(hs: seq<A>, enabled: bool): (r: (seq<A>, bool))
    ensures !enabled ==> r == ([], false)
    ensures enabled && |hs| > 0 ==> r == ([hs[0]], false)
    ensures hs == [] ==> r == ([], enabled)
    decreases |hs|
  {
    if hs == [] then ([], enabled)
    else if !enabled then RunHandlers(hs[1..], false)
    else
      var rest := RunHandlers(hs[1..], false);
      assert [hs[0]] + rest.0 == [hs[0]];
      ([hs[0]] + rest.0, rest.1)
  }

  /**
   The timer observed at time `now`: if it is running and its countdown is over,
   it raises Elapsed. A timer that no handler stops keeps running (AutoReset)
   and counts down another interval.
   */
  function Elapse<A>(t: Timer<A>, now: int): (r: Elapsed<A>)
    ensures |r.invoked| <= 1
    ensures r.timer.handlers == t.handlers && r.timer.timerStarted == t.timerStarted
    ensures !t.enabled || now < t.DueAt() ==> r == Elapsed(t, [])
    ensures t.enabled && now >= t.DueAt() && |t.handlers| > 0 ==>
              r.invoked == [t.handlers[0]] && !r.timer.enabled
    ensures Valid(t) ==> Valid(r.timer)
  {
    if !t.enabled || now < t.DueAt() then Elapsed(t, [])
    else
      var (invoked, stillEnabled) := RunHandlers(t.handlers, true);
      var armedAt := if stillEnabled then t.DueAt() else t.armedAt;
      Elapsed(t.(enabled := stillEnabled, armedAt := armedAt), invoked)
  }

  /** Once the timer has elapsed, observing it again invokes nothing until a new call. */
  lemma ElapseTwiceInvokesOnce<A>(t: Timer<A>, now: int, later: int)
    requires Valid(t) && Elapse(t, now).invoked != []
    ensures Elapse(t, now).invoked == [t.handlers[0]]
    ensures Elapse(Elapse(t, now).timer, later) == Elapsed(Elapse(t, now).timer, [])
  {
  }

  /** The first Throttle on a fresh timer waits the full interval. */
  lemma FirstThrottleUsesFullInterval<A>(created: int, now: int, interval: int, h: A)
    requires created <= now && 0 < interval <= Int32Max
    ensures Throttle(Create<A>(created), now, interval, h) == Armed(Timer([h], true, interval, now, now))
  {
  }

  /** Debounce never touches TimerStarted, so a Throttle after it still measures from the last Throttle. */
  lemma DebounceKeepsThrottleWindow<A>(t: Timer<A>, d: int, di: int, dh: A, now: int, interval: int, h: A)
    requires t.timerStarted <= now && interval > 0
    ensures Throttle(Debounce(t, d, di, dh).timer, now, interval, h).timer.interval ==
            Throttle(t, now, interval, h).timer.interval
  {
  }

  // ---- a burst of Debounce calls ----

  /** Which Debounce or Throttle a run uses: the code as written, or its documented intent. */
  datatype Policy = AsWritten | Intended

  /**
   The timer after a stream of calls, and the actions invoked along the way, in
   order, each with the time its countdown ended.
   */
  datatype Run<A> = Run(timer: Timer<A>, fired: seq<(int, A)>)

  /**
   Debounce as its comment describes it: the call kills the pending tick, so only
   the latest call's closure stays subscribed. Otherwise it is the code's Debounce.
   */
  function DebounceIntended<A>(t: Timer<A>, now: int, interval: int, h: A): (r: Call<A>)
    ensures r.timer.handlers == [h]
    ensures r.timer == Debounce(t, now, interval, h).timer.(handlers := [h])
    ensures r.Armed? <==> Debounce(t, now, interval, h).Armed?
    ensures Valid(r.timer)
  {
    var stopped := t.(enabled := false, handlers := [h]);
    if interval <= 0 then Rejected(stopped)
    else Armed(stopped.(enabled := true, interval := interval, armedAt := now))
  }

  function DebounceBy<A>(policy: Policy, t: Timer<A>, now: int, interval: int, h: A): (r: Timer<A>)
    requires interval > 0
    ensures Valid(r) && r.enabled && r.DueAt() == now + interval
  {
    match policy
    case AsWritten => Debounce(t, now, interval, h).timer
    case Intended => DebounceIntended(t, now, interval, h).timer
  }

  /** The timer after Debounce(interval, ...) at each (time, closure) of `calls`, in order. */
  function DebounceAll<A>(policy: Policy, t: Timer<A>, calls: seq<(int, A)>, interval: int): Timer<A>
    requires interval > 0
    decreases |calls|
  {
    if |calls| == 0 then t
    else DebounceAll(policy, DebounceBy(policy, t, calls[0].0, interval, calls[0].1), calls[1..], interval)
  }

  /** The closures of `calls`, in order. */
  function Closures<A>(calls: seq<(int, A)>): (r: seq<A>)
    ensures |r| == |calls|
    ensures forall i :: 0 <= i < |calls| ==> r[i] == calls[i].1
    decreases |calls|
  {
    if |calls| == 0 then [] else [calls[0].1] + Closures(calls[1..])
  }

  /** A burst of Debounce calls subscribes every closure, in order, after the existing handlers. */
  lemma {:induction false} DebounceAllSubscribes<A>(t: Timer<A>, calls: seq<(int, A)>, interval: int)
    requires interval > 0
    ensures DebounceAll(AsWritten, t, calls, interval).handlers == t.handlers + Closures(calls)
    decreases |calls|
  {
    if |calls| > 0 {
      var first := Debounce(t, calls[0].0, interval, calls[0].1).timer;
      assert DebounceAll(AsWritten, t, calls, interval) == DebounceAll(AsWritten, first, calls[1..], interval);
      DebounceAllSubscribes(first, calls[1..], interval);
      assert Closures(calls) == [calls[0].1] + Closures(calls[1..]);
      assert first.handlers + Closures(calls[1..]) == t.handlers + Closures(calls);
    }
  }

  /**
   Under either policy, a burst of Debounce calls leaves the timer running with a
   countdown that ends `interval` after the LAST call.
   */
  lemma {:induction false} DebounceAllArms<A>(policy: Policy, t: Timer<A>, calls: seq<(int, A)>, interval: int)
    requires interval > 0 && |calls| > 0
    ensures Valid(DebounceAll(policy, t, calls, interval)) && DebounceAll(policy, t, calls, interval).enabled
    ensures DebounceAll(policy, t, calls, interval).DueAt() == calls[|calls| - 1].0 + interval
    decreases |calls|
  {
    var first := DebounceBy(policy, t, calls[0].0, interval, calls[0].1);
    var rest := calls[1..];
    assert DebounceAll(policy, t, calls, interval) == DebounceAll(policy, first, rest, interval);
    if |rest| > 0 {
      DebounceAllArms(policy, first, rest, interval);
      assert rest[|rest| - 1] == calls[|calls| - 1];
    } else {
      assert DebounceAll(policy, first, rest, interval) == first;
    }
  }

  /** Under the intended Debounce, a burst leaves only its last call's closure subscribed. */
  lemma {:induction false} DebounceAllKeepsLatest<A>(t: Timer<A>, calls: seq<(int, A)>, interval: int)
    requires interval > 0 && |calls| > 0
    ensures DebounceAll(Intended, t, calls, interval).handlers == [calls[|calls| - 1].1]
    decreases |calls|
  {
    var first := DebounceIntended(t, calls[0].0, interval, calls[0].1).timer;
    var rest := calls[1..];
    assert DebounceAll(Intended, t, calls, interval) == DebounceAll(Intended, first, rest, interval);
    if |rest| > 0 {
      DebounceAllKeepsLatest(first, rest, interval);
      assert rest[|rest| - 1] == calls[|calls| - 1];
    } else {
      assert DebounceAll(Intended, first, rest, interval) == first;
    }
  }

  /**
   Debounce coalescing as the code behaves: after a burst of calls nothing fires
   before `interval` has passed since the last call; then exactly one action
   fires, and it is the OLDEST subscribed closure (the timer's first handler ever,
   or the burst's first call on a fresh timer), not the latest call's.
   */
  lemma DebounceBurstFiresOnce<A>(t: Timer<A>, calls: seq<(int, A)>, interval: int, now: int)
    requires interval > 0 && |calls| > 0
    ensures var u := DebounceAll(AsWritten, t, calls, interval);
      var due := calls[|calls| - 1].0 + interval;
      && (now < due ==> Elapse(u, now).invoked == [])
      && (now >= due ==> Elapse(u, now).invoked ==
                           [if |t.handlers| > 0 then t.handlers[0] else calls[0].1])
  {
    DebounceAllArms(AsWritten, t, calls, interval);
    DebounceAllSubscribes(t, calls, interval);
  }

  /**
   Debounce coalescing as intended: after a burst nothing fires before `interval`
   has passed since the last call; then the LATEST call's closure fires, once.
   */
  lemma DebounceIntendedBurstFiresLatest<A>(t: Timer<A>, calls: seq<(int, A)>, interval: int,
                                            now: int, later: int)
    requires interval > 0 && |calls| > 0
    ensures var u := DebounceAll(Intended, t, calls, interval);
      var due := calls[|calls| - 1].0 + interval;
      && (now < due ==> Elapse(u, now).invoked == [])
      && (now >= due ==> && Elapse(u, now).invoked == [calls[|calls| - 1].1]
                         && Elapse(Elapse(u, now).timer, later).invoked == [])
  {
    DebounceAllArms(Intended, t, calls, interval);
    DebounceAllKeepsLatest(t, calls, interval);
  }

  /**
   Debounce(interval, ...) at each (time, closure) of `calls`, in order, with the
   timer observed at each call's time just before the call, as the real timer
   would have raised Elapsed in between.
   */
  function DebounceRun<A>(policy: Policy, t: Timer<A>, calls: seq<(int, A)>, interval: int): Run<A>
    requires interval > 0
    decreases |calls|
  {
    if |calls| == 0 then Run(t, [])
    else
      var e := Elapse(t, calls[0].0);
      var stamped := if e.invoked == [] then [] else [(t.DueAt(), e.invoked[0])];
      var next := DebounceRun(policy, DebounceBy(policy, e.timer, calls[0].0, interval, calls[0].1),
                              calls[1..], interval);
      Run(next.timer, stamped + next.fired)
  }

  /** Each call comes before the countdown armed by the previous one has ended. */
  predicate CloseCalls<A>(calls: seq<(int, A)>, interval: int) {
    forall i :: 0 < i < |calls| ==> calls[i].0 < calls[i - 1].0 + interval
  }

  /**
   A burst whose first call comes before any pending firing and whose calls are
   less than `interval` apart fires nothing while it lasts, under either policy,
   and leaves the timer DebounceAll describes.
   */
  lemma {:induction false} DebounceRunQuiet<A>(policy: Policy, t: Timer<A>, calls: seq<(int, A)>, interval: int)
    requires interval > 0 && |calls| > 0
    requires t.enabled ==> calls[0].0 < t.DueAt()
    requires CloseCalls(calls, interval)
    ensures DebounceRun(policy, t, calls, interval).fired == []
    ensures DebounceRun(policy, t, calls, interval).timer == DebounceAll(policy, t, calls, interval)
    decreases |calls|
  {
    var c := calls[0].0;
    assert Elapse(t, c) == Elapsed(t, []);
    var next := DebounceBy(policy, t, c, interval, calls[0].1);
    var rest := calls[1..];
    assert DebounceRun(policy, t, calls, interval) == DebounceRun(policy, next, rest, interval);
    assert DebounceAll(policy, t, calls, interval) == DebounceAll(policy, next, rest, interval);
    if |rest| > 0 {
      assert rest[0] == calls[1];
      assert CloseCalls(rest, interval) by {
        forall i | 0 < i < |rest|
          ensures rest[i].0 < rest[i - 1].0 + interval
        {
          assert rest[i] == calls[i + 1] && rest[i - 1] == calls[i];
        }
      }
      DebounceRunQuiet(policy, next, rest, interval);
    }
  }

  /**
   The whole burst, observed throughout: with calls less than `interval` apart,
   nothing fires during the burst, nothing fires before `interval` after the last
   call, and then exactly one action fires: the oldest handler's as written,
   the last call's as intended.
   */
  lemma DebounceBurstRunFiresOnce<A>(policy: Policy, t: Timer<A>, calls: seq<(int, A)>, interval: int,
                                     now: int, later: int)
    requires interval > 0 && |calls| > 0
    requires t.enabled ==> calls[0].0 < t.DueAt()
    requires CloseCalls(calls, interval)
    ensures var run := DebounceRun(policy, t, calls, interval);
      var due := calls[|calls| - 1].0 + interval;
      && run.fired == []
      && (now < due ==> Elapse(run.timer, now).invoked == [])
      && (now >= due ==>
            && Elapse(run.timer, now).invoked ==
                 [if policy == Intended then calls[|calls| - 1].1
                  else if |t.handlers| > 0 then t.handlers[0] else calls[0].1]
            && Elapse(Elapse(run.timer, now).timer, later).invoked == [])
  {
    DebounceRunQuiet(policy, t, calls, interval);
    DebounceAllArms(policy, t, calls, interval);
    if policy == Intended {
      DebounceIntendedBurstFiresLatest(t, calls, interval, now, later);
    } else {
      DebounceBurstFiresOnce(t, calls, interval, now);
    }
  }

  // ---- a stream of Throttle calls ----

  /**
   Throttle as its documentation describes it: a call while a firing is pending
   only replaces the payload and keeps the pending firing's time; otherwise it
   arms the timer as the code does. One handler, the latest call's, is kept.
   */
  function ThrottleIntended<A>(t: Timer<A>, now: int, interval: int, h: A): (r: Call<A>)
    ensures r.timer.handlers == [h] && Valid(r.timer)
    ensures t.enabled && t.interval > 0 ==> r == Armed(t.(handlers := [h]))
    ensures !t.enabled && t.timerStarted <= now && interval > 0 ==>
              r.Armed? && r.timer.enabled && now < r.timer.DueAt() <= now + interval
  {
    if t.enabled && t.interval > 0 then Armed(t.(handlers := [h]))
    else
      var elapsed := now - t.timerStarted;
      var effective := if elapsed < interval then interval - elapsed else interval;
      var stopped := t.(enabled := false, handlers := [h]);
      if effective <= 0 then Rejected(stopped)
      else Armed(stopped.(enabled := true, interval := effective, armedAt := now, timerStarted := now))
  }

  function ThrottleBy<A>(policy: Policy, t: Timer<A>, now: int, interval: int, h: A): Timer<A> {
    match policy
    case AsWritten => Throttle(t, now, interval, h).timer
    case Intended => ThrottleIntended(t, now, interval, h).timer
  }

  /**
   Throttle(interval, ...) at each (time, closure) of `calls`, in order; just
   before each call the timer is observed at that call's time. A firing is
   stamped with the time the timer raised it, the end of its countdown.
   */
  function ThrottleRun<A>(policy: Policy, t: Timer<A>, calls: seq<(int, A)>, interval: int): Run<A>
    decreases |calls|
  {
    if |calls| == 0 then Run(t, [])
    else
      var e := Elapse(t, calls[0].0);
      var stamped := if e.invoked == [] then [] else [(t.DueAt(), e.invoked[0])];
      var next := ThrottleRun(policy, ThrottleBy(policy, e.timer, calls[0].0, interval, calls[0].1),
                              calls[1..], interval);
      Run(next.timer, stamped + next.fired)
  }

  /** Consecutive calls, starting from time `start`, are never more than `gap` apart. */
  predicate SteadyCalls<A>(start: int, calls: seq<(int, A)>, gap: int) {
    && (|calls| > 0 ==> 0 <= calls[0].0 - start <= gap)
    && forall i :: 0 < i < |calls| ==> 0 <= calls[i].0 - calls[i - 1].0 <= gap
  }

  /** The timer was last throttled at `last` and is due no earlier than `last - gap + interval`. */
  predicate Postponed<A>(t: Timer<A>, last: int, gap: int, interval: int) {
    Valid(t) && t.enabled && t.timerStarted == last && t.DueAt() >= last - gap + interval
  }

  /**
   As written, calls closer together than half the interval postpone the firing
   forever: each call moves the due time to the previous call plus `interval`.
   */
  lemma {:induction false} SteadyThrottleNeverFires<A>(t: Timer<A>, calls: seq<(int, A)>, gap: int, interval: int)
    requires 0 <= gap && 2 * gap < interval
    requires Postponed(t, t.timerStarted, gap, interval)
    requires SteadyCalls(t.timerStarted, calls, gap)
    ensures ThrottleRun(AsWritten, t, calls, interval).fired == []
    ensures |calls| > 0 ==> Postponed(ThrottleRun(AsWritten, t, calls, interval).timer, calls[|calls| - 1].0, gap, interval)
    decreases |calls|
  {
    if |calls| > 0 {
      var c := calls[0].0;
      assert Elapse(t, c) == Elapsed(t, []);
      var next := Throttle(t, c, interval, calls[0].1).timer;
      assert Postponed(next, c, gap, interval);
      var rest := calls[1..];
      assert forall i :: 0 <= i < |rest| ==> rest[i] == calls[i + 1];
      assert SteadyCalls(c, rest, gap);
      SteadyThrottleNeverFires(next, rest, gap, interval);
      if |rest| > 0 {
        assert rest[|rest| - 1] == calls[|calls| - 1];
      }
    }
  }

  /** A pending intended firing happens by the first call at or after its due time. */
  lemma {:induction false} PendingIntendedFires<A>(t: Timer<A>, calls: seq<(int, A)>, interval: int)
    requires Valid(t) && t.enabled && |calls| > 0 && calls[|calls| - 1].0 >= t.DueAt()
    ensures ThrottleRun(Intended, t, calls, interval).fired != []
    decreases |calls|
  {
    var c := calls[0].0;
    if c < t.DueAt() {
      assert Elapse(t, c) == Elapsed(t, []);
      var next := ThrottleIntended(t, c, interval, calls[0].1).timer;
      assert next.DueAt() == t.DueAt();
      var rest := calls[1..];
      assert rest[|rest| - 1] == calls[|calls| - 1];
      PendingIntendedFires(next, rest, interval);
    }
  }

  /**
   The intended Throttle fires at least once in every stream of calls that
   starts on a stopped timer and lasts at least one interval.
   */
  lemma IntendedThrottleFiresWithinInterval<A>(t: Timer<A>, calls: seq<(int, A)>, interval: int)
    requires !t.enabled && interval > 0 && |calls| > 0
    requires t.timerStarted <= calls[0].0
    requires calls[|calls| - 1].0 >= calls[0].0 + interval
    ensures ThrottleRun(Intended, t, calls, interval).fired != []
  {
    var c := calls[0].0;
    assert Elapse(t, c) == Elapsed(t, []);
    var next := ThrottleIntended(t, c, interval, calls[0].1).timer;
    var rest := calls[1..];
    assert rest[|rest| - 1] == calls[|calls| - 1];
    PendingIntendedFires(next, rest, interval);
  }

  /**
   Counterexample to "fires every interval even if events are pending": on a
   fresh timer, calls at most `gap` apart with 2 * gap < interval never fire as
   written, however long they go on, while the intended Throttle fires once the
   calls have lasted an interval.
   */
  lemma ThrottleStarvesUnderSteadyCalls<A>(created: int, calls: seq<(int, A)>, gap: int, interval: int)
    requires 0 <= gap && 2 * gap < interval <= Int32Max
    requires |calls| > 0 && created <= calls[0].0
    requires SteadyCalls(calls[0].0, calls, gap)
    ensures ThrottleRun(AsWritten, Create<A>(created), calls, interval).fired == []
    ensures calls[|calls| - 1].0 >= calls[0].0 + interval ==>
              ThrottleRun(Intended, Create<A>(created), calls, interval).fired != []
  {
    var t := Create<A>(created);
    var c := calls[0].0;
    assert Elapse(t, c) == Elapsed(t, []);
    FirstThrottleUsesFullInterval(created, c, interval, calls[0].1);
    var next := Throttle(t, c, interval, calls[0].1).timer;
    var rest := calls[1..];
    assert forall i :: 0 <= i < |rest| ==> rest[i] == calls[i + 1];
    assert SteadyCalls(c, rest, gap);
    SteadyThrottleNeverFires(next, rest, gap, interval);
    if calls[|calls| - 1].0 >= calls[0].0 + interval {
      IntendedThrottleFiresWithinInterval(t, calls, interval);
    }
  }

  // ---- spacing between firings ----

  /**
   Counterexample to "only 1 event fires for the given timeout period": as
   written, the wait is measured from the previous call, not from the previous
   firing, so a call just after a firing re-arms the timer for what is left of an
   interval that began before it. On a fresh timer with interval 100, calls at
   0, 1, 100 and 101 fire at 100 and at 101, both times with the oldest closure.
   */
  lemma ThrottleFiresTwiceInOneInterval()
    ensures ThrottleRun(AsWritten, Create<int>(-1000), TwoPairs(), 100).fired == [(100, 1), (101, 1)]
  {
    var calls := TwoPairs();
    var t0 := Create<int>(-1000);
    var a1 := Throttle(t0, 0, 100, 1).timer;
    assert ThrottleRun(AsWritten, t0, calls, 100).fired == ThrottleRun(AsWritten, a1, calls[1..], 100).fired;
    var a2 := Throttle(a1, 1, 100, 2).timer;
    assert calls[1..][1..] == calls[2..];
    assert ThrottleRun(AsWritten, a1, calls[1..], 100).fired == ThrottleRun(AsWritten, a2, calls[2..], 100).fired;
    var e3 := Elapse(a2, 100);
    assert e3.invoked == [1];
    var a3 := Throttle(e3.timer, 100, 100, 3).timer;
    assert a3.DueAt() == 101;
    assert calls[2..][1..] == calls[3..];
    assert ThrottleRun(AsWritten, a2, calls[2..], 100).fired
        == [(100, 1)] + ThrottleRun(AsWritten, a3, calls[3..], 100).fired;
    assert calls[3..][1..] == [];
    assert ThrottleRun(AsWritten, a3, calls[3..], 100).fired == [(101, 1)];
  }

  /** The same calls under the intended Throttle fire once, at 100, with the payload pending then. */
  lemma IntendedThrottleFiresOnceInThatInterval()
    ensures ThrottleRun(Intended, Create<int>(-1000), TwoPairs(), 100).fired == [(100, 2)]
  {
    var calls := TwoPairs();
    var t0 := Create<int>(-1000);
    var i1 := ThrottleIntended(t0, 0, 100, 1).timer;
    assert ThrottleRun(Intended, t0, calls, 100).fired == ThrottleRun(Intended, i1, calls[1..], 100).fired;
    var i2 := ThrottleIntended(i1, 1, 100, 2).timer;
    assert calls[1..][1..] == calls[2..];
    assert ThrottleRun(Intended, i1, calls[1..], 100).fired == ThrottleRun(Intended, i2, calls[2..], 100).fired;
    var e3 := Elapse(i2, 100);
    assert e3.invoked == [2];
    var i3 := ThrottleIntended(e3.timer, 100, 100, 3).timer;
    assert i3.DueAt() == 200;
    assert calls[2..][1..] == calls[3..];
    assert ThrottleRun(Intended, i2, calls[2..], 100).fired
        == [(100, 2)] + ThrottleRun(Intended, i3, calls[3..], 100).fired;
    assert calls[3..][1..] == [];
    assert ThrottleRun(Intended, i3, calls[3..], 100).fired == [];
  }

  /** Two pairs of calls 1 ms apart, the pairs one interval of 100 apart. */
  function TwoPairs(): seq<(int, int)> {
    [(0, 1), (1, 2), (100, 3), (101, 4)]
  }

  /**
   As written, calls every 60 ms on a fresh timer with interval 100 fire every
   60 ms once the first interval is over: at 100, 160 and 220.
   */
  lemma SteadyThrottleFiresTooOften()
    ensures ThrottleRun(AsWritten, Create<int>(-1000), [(0, 0), (60, 1), (120, 2), (180, 3), (240, 4)], 100).fired
            == [(100, 0), (160, 0), (220, 0)]
  {
    var t0 := Create<int>(-1000);
    var a1 := Throttle(t0, 0, 100, 0).timer;
    var a2 := Throttle(a1, 60, 100, 1).timer;
    var a3 := Throttle(Elapse(a2, 120).timer, 120, 100, 2).timer;
    assert a3.DueAt() == 160;
    var a4 := Throttle(Elapse(a3, 180).timer, 180, 100, 3).timer;
    assert a4.DueAt() == 220;
  }

  /** Call times never decrease and never precede `start`. */
  predicate Ordered<A>(start: int, calls: seq<(int, A)>) {
    && (|calls| > 0 ==> start <= calls[0].0)
    && forall i :: 0 < i < |calls| ==> calls[i - 1].0 <= calls[i].0
  }

  /** Consecutive firings are at least `interval` apart, the first at least `interval` after `last`. */
  predicate SpacedFirings<A>(fired: seq<(int, A)>, last: int, interval: int) {
    && (|fired| > 0 ==> fired[0].0 >= last + interval)
    && forall i :: 0 < i < |fired| ==> fired[i].0 - fired[i - 1].0 >= interval
  }

  /**
   The invariant of the intended Throttle, where `last` is the time of the last
   firing: a running countdown lasts one full interval from a call made no
   earlier than `last`, and a stopped timer was last started a full interval
   or more before `last`.
   */
  predicate Spaced<A>(t: Timer<A>, interval: int, last: int) {
    && Valid(t)
    && (t.enabled ==> t.DueAt() == t.timerStarted + interval && t.timerStarted >= last)
    && (!t.enabled ==> t.timerStarted + interval <= last)
  }

  lemma CreateSpaced<A>(created: int, interval: int)
    requires 0 < interval <= YearMs
    ensures Spaced(Create<A>(created), interval, created - YearMs + interval)
  {
  }

  /** An intended call that finds no firing due keeps the invariant. */
  lemma ThrottleIntendedKeepsSpaced<A>(t: Timer<A>, now: int, interval: int, h: A, last: int)
    requires interval > 0 && Spaced(t, interval, last) && now >= last
    requires t.enabled ==> now < t.DueAt()
    ensures Spaced(ThrottleIntended(t, now, interval, h).timer, interval, last)
  {
  }

  /** A firing comes a full interval after the last one and restarts the invariant from itself. */
  lemma ElapseKeepsSpaced<A>(t: Timer<A>, now: int, interval: int, last: int)
    requires Spaced(t, interval, last) && Elapse(t, now).invoked != []
    ensures t.DueAt() >= last + interval && t.DueAt() <= now
    ensures Spaced(Elapse(t, now).timer, interval, t.DueAt())
  {
  }

  /** The invariant carried over a whole run of intended Throttle calls. */
  lemma {:induction false} IntendedRunSpaced<A>(t: Timer<A>, calls: seq<(int, A)>, interval: int, last: int)
    requires interval > 0 && Spaced(t, interval, last) && Ordered(last, calls)
    ensures SpacedFirings(ThrottleRun(Intended, t, calls, interval).fired, last, interval)
    decreases |calls|
  {
    if |calls| > 0 {
      var c := calls[0].0;
      var e := Elapse(t, c);
      var rest := calls[1..];
      assert forall i :: 0 <= i < |rest| ==> rest[i] == calls[i + 1];
      var last' := if e.invoked == [] then last else t.DueAt();
      if e.invoked != [] {
        ElapseKeepsSpaced(t, c, interval, last);
      } else {
        assert e.timer == t;
      }
      ThrottleIntendedKeepsSpaced(e.timer, c, interval, calls[0].1, last');
      var next := ThrottleIntended(e.timer, c, interval, calls[0].1).timer;
      assert Ordered(last', rest);
      IntendedRunSpaced(next, rest, interval, last');
    }
  }

  /**
   The intended Throttle lets at most one event fire per timeout period: on a
   fresh timer, with call times that never go back, consecutive firings are at
   least `interval` apart.
   */
  lemma IntendedThrottleSpacesFirings<A>(created: int, calls: seq<(int, A)>, interval: int)
    requires 0 < interval <= Int32Max && Ordered(created, calls)
    ensures var fired := ThrottleRun(Intended, Create<A>(created), calls, interval).fired;
      forall i :: 0 < i < |fired| ==> fired[i].0 - fired[i - 1].0 >= interval
  {
    var last := created - YearMs + interval;
    CreateSpaced<A>(created, interval);
    IntendedRunSpaced(Create<A>(created), calls, interval, last);
  }
}
